=== FILE: README.md ===
# Finance tracker ledger core, in Dafny

This project models the ledger logic of a browser-based personal finance
tracker. Records are income or expense entries. A record carries an id, a
description, a positive amount, a category, a calendar date and optional
recurrence fields. The model covers:

- **Filtered view and export** (`App`): the record predicate of
  `getFilteredTransactions`, with an inclusive date range, the `'all'` or
  exact-category test, and a case-insensitive substring search. It also
  covers the five-column row projection of `handleExport`, and
  `addTransaction` / `deleteTransaction`.
- **Charts** (`Charts`):
  - The pie data, which sums expense amounts per category, with slices in
    first-occurrence order.
  - The line data, which gives per-month income and expense totals for the
    `yyyy-MM` bucket of each record, sorted by month.
- **Submit handler** (`TransactionForm`):
  - The validation guard: trimmed description, non-empty and positive amount.
  - The record it builds, including the recurrence fields.
  - The reset of the form state afterwards.
- **Filter panel state machine** (`FilterPanel`):
  - The five date-range presets and the two getters that recompute bounds.
  - The category and search handlers.
  - The `Custom` button, which only sets the selection.
  - Multi-step runs of user actions.
- **Supporting modules**:
  - `Seqs`: `Array.filter`, as an order-preserving selection.
  - `Text`: JavaScript `trim`, `toLowerCase` and `includes`.
  - `Dates`: calendar days, month keys, `startOfMonth`, `endOfMonth`,
    `subMonths`, and the `yyyy-MM` formatting and its string order.
  - `Weeks`: day counts, the day of the week, and date-fns `startOfWeek` /
    `endOfWeek` with their default Sunday start, which the panel calls
    without options.
  - `Instants`: the same date test on millisecond instants, in a local time
    zone.
  - `Domain`: the record datatype.
  - `Scenarios`: a worked three-record example.

Clock reads are parameters:

- `Date.now()` for the id.
- The local date stamped on a new record.
- The UTC date the form resets its start date to.
- The current date, which the filter panel reads as a `Clock`.

The ledger is a sequence with the newest record first. A JavaScript object
used as an accumulator is an association list in key-insertion order.

Two behaviours of the code worth knowing:

- Switching from `custom` to a preset does not clear the typed custom dates.
  They stay in the panel state and come back when `custom` is chosen again
  (`FilterPanel.CustomBoundsSurvivePresets`).
- Pressing the `Custom` button changes the highlighted range but emits no
  configuration. The application keeps filtering with the previous bounds
  until another control fires (`FilterPanel.ClickCustomLeavesConfigStale`).

The pie's slice order is the order in which each category first occurs
among the expenses. The line data is ordered by month.

## Model

| member | source | states |
|---|---|---|
| Seqs.Keep | src/App.jsx:30-37 | `filter` keeps exactly the elements satisfying the predicate and never lengthens the sequence |
| Seqs.KeepIsSubseq | src/App.jsx:30 | `filter` output is an order-preserving subsequence of its input |
| Seqs.KeepPositions | src/App.jsx:30 | the output is the input read at increasing positions, and those positions are exactly the ones whose element passes |
| Seqs.KeepAll | src/App.jsx:63 | when every element passes, `filter` returns its input unchanged |
| Seqs.KeepNone | src/App.jsx:30-37 | when no element passes, `filter` returns the empty sequence |
| Seqs.KeepIdempotent | src/App.jsx:30-37 | filtering twice with one predicate equals filtering once |
| Seqs.KeepMonotone | src/App.jsx:30-37 | a weaker predicate keeps a supersequence of what a stronger one keeps |
| Seqs.KeepCons | src/App.jsx:58-64 | filtering a sequence with one record put in front keeps that record in front exactly when it passes |
| Text.TrimStart | src/Component/TransactionForm.jsx:20 | the result is a suffix of the input; the characters dropped are all white space and the result does not start with white space |
| Text.TrimEnd | src/Component/TransactionForm.jsx:20 | the result is a prefix of the input; the characters dropped are all white space and the result does not end with white space |
| Text.TrimIsCore | src/Component/TransactionForm.jsx:20 | `trim` returns the slice between the first and last non-white-space characters, with only white space outside it |
| Text.TrimEmptyIff | src/Component/TransactionForm.jsx:13 | `!description.trim()` holds exactly when every character of the description is white space or a line terminator |
| Text.TrimIdempotent | src/Component/TransactionForm.jsx:20 | trimming a trimmed string changes nothing |
| Text.Lower | src/App.jsx:35 | lower-casing keeps the length and maps each character on its own by the ASCII case map |
| Text.LowerIdempotent | src/App.jsx:35 | lower-casing twice equals lower-casing once |
| Text.LowerSlice | src/App.jsx:35 | lower-casing commutes with taking a slice |
| Text.IncludesIff | src/App.jsx:35 | `includes` holds exactly when the needle occurs at some position of the haystack |
| Text.IncludesEmpty | src/App.jsx:35 | every string includes the empty string |
| Dates.DateLeTotalOrder | src/App.jsx:32-33 | the order the date bounds use is reflexive, antisymmetric, transitive and total on days |
| Dates.KeyLtIsIndexOrder | src/Component/Charts.jsx:29 | month keys compare as their month counts do |
| Dates.MonthOfMonotone | src/Component/Charts.jsx:23 | a later day never has an earlier month key |
| Dates.MonthBoundsContain | src/Component/Filter.jsx:19-20 | `startOfMonth` and `endOfMonth` are valid days of the given day's month that enclose it, and the days between them are exactly the valid days of that month |
| Dates.SubMonthsIndex | src/Component/Filter.jsx:22 | `subMonths(d, n)` is a valid day exactly `n` calendar months earlier: the same day of the month when that month has it, else that month's last day |
| Dates.StrLtConcat | src/Component/Charts.jsx:29 | for equal-length prefixes, the string order of a concatenation is decided by the prefixes first, then by the tails |
| Dates.DigitsOrder | src/Component/Charts.jsx:23 | equal-width zero-padded numbers compare as strings exactly as they compare as numbers |
| Dates.FormatMonthKeyOrder | src/Component/Charts.jsx:23-29 | for the years 1 to 9999, `localeCompare` on `yyyy-MM` strings orders them exactly as the months are ordered, and equal strings mean equal months |
| App.FilteredTransactions | src/App.jsx:29-38 | a record is in the view exactly when it is in the ledger and passes the date, category and search tests together |
| App.FilterSelectsPassing | src/App.jsx:30-36 | the view is the ledger read at increasing positions, and those positions are exactly the ones whose record passes |
| App.FilterIdempotent | src/App.jsx:29-38 | filtering the view again with the same configuration changes nothing |
| App.InitialFiltersShowEverything | src/App.jsx:14-38 | with the initial configuration the view is the whole ledger |
| App.SingleDayRange | src/App.jsx:32-33 | both bounds are inclusive: `dateFrom == dateTo == d` selects exactly the records dated `d` |
| App.InvertedRangeIsEmpty | src/App.jsx:32-33 | a range whose end precedes its start yields an empty view, not an error |
| App.FilterMonotone | src/App.jsx:32-35 | widening the range, choosing `'all'` or clearing the search never removes or reorders a record in the view |
| App.SearchIgnoresCase | src/App.jsx:35 | the search result does not change when either the description or the search text is lower-cased first |
| App.SearchFindsOccurrence | src/App.jsx:35 | a description that contains the search text literally always matches |
| App.ExportRows | src/App.jsx:41-47 | one row per record, in order, each copying date, description, amount, type and category |
| App.ExportRowsLossless | src/App.jsx:41-47 | equal row sequences come only from record sequences that agree on the five exported fields |
| App.ExportFollowsView | src/App.jsx:40-47 | export row `k` is the row of the ledger record at the `k`-th passing position; the export holds the filtered view and nothing else |
| App.DeleteTransaction | src/App.jsx:62-64 | after deleting `id`, a record remains exactly when it was there and carries another id; no record with `id` remains |
| App.DeleteKeepsOrder | src/App.jsx:62-64 | the surviving records keep their order, and deleting an id no record carries leaves the ledger unchanged |
| App.DeleteSelectsOthers | src/App.jsx:62-64 | the result is the ledger read at increasing positions, and those positions are exactly the ones whose record carries another id, so every other record survives, duplicates included, in order |
| App.DeleteUndoesAdd | src/App.jsx:58-64 | deleting a just-added record by its fresh id restores the previous ledger |
| App.FilterAfterAdd | src/App.jsx:58-60 | after an add, the view gains the new record in front exactly when it passes the filter, and is otherwise unchanged |
| Charts.AddToSlice | src/Component/Charts.jsx:11-13 | existing slices keep their names and positions; a category has a slice afterwards exactly when it had one or is the one added; that category's value grows by the amount and no other value changes; the total grows by the amount; distinct names stay distinct |
| Charts.TallyExpensesSpec | src/Component/Charts.jsx:11-14 | folding records into slices: a category has a slice afterwards exactly when it had one or occurs among the records; each value grows by that category's sum over the records; existing slices keep their positions; distinct names stay distinct |
| Charts.ExpensesOnly | src/Component/Charts.jsx:9-10 | only expense records reach the reduction |
| Charts.SliceValueOfMember | src/Component/Charts.jsx:16-19 | every slice in the pie carries its category's value |
| Charts.PieDataSpec | src/Component/Charts.jsx:9-19 | the pie has distinct names; a category has a slice exactly when some expense has it; each value is that category's expense sum; the values add up to total expense |
| Charts.PieIgnoresIncome | src/Component/Charts.jsx:10 | dropping the income records from the input leaves the pie unchanged |
| Charts.PieValuesPositive | src/Component/Charts.jsx:9-19 | when every amount is positive, every slice value is positive |
| Charts.AddToMonth | src/Component/Charts.jsx:24-25 | a month has a bucket afterwards exactly when it had one or is the record's month; only that month's income or expense, by the record's type, grows by the amount; the total grows by the amount; distinct months stay distinct |
| Charts.TallyMonthsSpec | src/Component/Charts.jsx:22-27 | folding records into buckets: a month has a bucket afterwards exactly when it had one or some record falls in it; each bucket's income and expense grow by that month's sums per type; distinct months stay distinct |
| Charts.Insert | src/Component/Charts.jsx:29 | the result is a permutation of the list plus the inserted bucket, with the same totals |
| Charts.InsertAscending | src/Component/Charts.jsx:29 | inserting a bucket whose month is new into a strictly ascending list keeps it strictly ascending |
| Charts.SortByMonth | src/Component/Charts.jsx:29 | the sort returns a permutation of its input, with the same totals |
| Charts.SortAscending | src/Component/Charts.jsx:29 | buckets with distinct months come out strictly ascending by month |
| Charts.LineDataSpec | src/Component/Charts.jsx:22-29 | the line data is strictly ascending by month; a month is present exactly when some record falls in it; each bucket's sums are that month's sums per type; the totals equal the ledger totals |
| Charts.EachRecordInOneBucket | src/Component/Charts.jsx:22-29 | each record's month has exactly one bucket in the line data |
| Charts.LineDataSortedAsText | src/Component/Charts.jsx:23-29 | for the years 1 to 9999 the buckets' `yyyy-MM` labels also ascend as strings, which is the order `localeCompare` sorts by |
| Charts.EmptyInputNoData | src/Component/Charts.jsx:9-29 | an empty ledger gives an empty pie and an empty line |
| TransactionForm.HandleSubmit | src/Component/TransactionForm.jsx:12-40 | submit is rejected exactly when the trimmed description is empty or the amount is missing or not positive, and then the form is unchanged; otherwise the emitted record has the form's fields, its description trimmed, recurrence fields only when recurring, and the form returns to its defaults |
| TransactionForm.SubmittedRecordWellFormed | src/Component/TransactionForm.jsx:13-29 | every emitted record has a non-empty trimmed description, a positive amount, and consistent recurrence fields |
| TransactionForm.BlankDescriptionRejected | src/Component/TransactionForm.jsx:13-16 | a description of only white space is rejected and nothing changes |
| TransactionForm.NoDoubleSubmit | src/Component/TransactionForm.jsx:31-39 | after a successful submit, submitting again emits nothing |
| TransactionForm.SubmitKeepsLedgerWellFormed | src/Component/TransactionForm.jsx:18-31 | adding an emitted record to a well-formed ledger keeps it well formed |
| FilterPanel.HandleDateRangeChange | src/Component/Filter.jsx:11-32 | choosing a range records it and always emits a configuration with the current category and search; `all` or an unknown name emits no bounds, `custom` emits the typed custom dates |
| FilterPanel.HandleCategoryChange | src/Component/Filter.jsx:34-37 | choosing a category records it, changes nothing else, and emits it with the current search |
| FilterPanel.HandleSearchChange | src/Component/Filter.jsx:39-42 | typing a search records it, changes nothing else, and emits it with the current category |
| FilterPanel.PressCustom | src/Component/Filter.jsx:77 | the `Custom` button selects `custom`, changes nothing else, and emits nothing |
| FilterPanel.GettersAgreeWithRangeChange | src/Component/Filter.jsx:11-58 | the getters recompute, for every range, exactly the bounds that choosing the range emitted |
| FilterPanel.EmittedConfigMatchesState | src/Component/Filter.jsx:31-58 | every handler emits the configuration the panel's new state denotes |
| FilterPanel.InitialPanelMatchesApp | src/Component/Filter.jsx:5-9 | the panel's initial state denotes the application's initial configuration |
| FilterPanel.PresetsContainToday | src/Component/Filter.jsx:15-23 | the week, month and three-month ranges each contain the current day |
| FilterPanel.ThisWeekRunsSundayToSaturday | src/Component/Filter.jsx:15-17 | the week range runs from a Sunday to the Saturday six days later, both real calendar dates |
| FilterPanel.ThisMonthSelectsCurrentMonth | src/Component/Filter.jsx:18-20 | on a valid clock, `thisMonth` admits a day exactly when it is a valid day of the current month |
| FilterPanel.Last3MonthsSelectsThreeMonths | src/Component/Filter.jsx:21-23 | on a valid clock, `last3Months` admits a valid day exactly when its month is the current month or one of the two before it |
| FilterPanel.Last3MonthsCoversThisMonth | src/Component/Filter.jsx:18-23 | the three-month range ends where the current-month range ends, and its view contains the current-month view in order |
| FilterPanel.RunStaysInSync | src/Component/Filter.jsx:11-58 | over any run of range, category and search actions, the application's configuration stays the one the panel's state denotes |
| FilterPanel.ClickCustomLeavesConfigStale | src/Component/Filter.jsx:77 | from the initial panel with a typed start date, pressing `Custom` leaves the application on the initial configuration although the panel now denotes the typed start date |
| FilterPanel.CustomBoundsSurvivePresets | src/Component/Filter.jsx:24-30 | after choosing any other range, pressing `Custom` and typing a search, the emitted bounds are the custom dates typed before |
| Weeks.YearLength | src/Component/Filter.jsx:16-17 | a year has 366 days when it is a leap year and 365 otherwise |
| Weeks.MonthsFillYear | src/Component/Filter.jsx:16-17 | the twelve month lengths add up to the year's length |
| Weeks.PrevDayCount | src/Component/Filter.jsx:16 | the day before a valid day is one day count earlier, across month and year ends |
| Weeks.NextDayCount | src/Component/Filter.jsx:17 | the day after a valid day is one day count later, across month and year ends |
| Weeks.PrevDayStep | src/Component/Filter.jsx:16 | the day before a valid day is a valid, earlier day one count back, and the next day of it is the day itself |
| Weeks.NextDayStep | src/Component/Filter.jsx:17 | the day after a valid day is a valid, later day one count on, and the day before it is the day itself |
| Weeks.DaysBackSpec | src/Component/Filter.jsx:16 | going `n` days back from a valid day gives a valid day `n` counts earlier, not after it |
| Weeks.DaysForwardSpec | src/Component/Filter.jsx:17 | going `n` days forward from a valid day gives a valid day `n` counts later, not before it |
| Weeks.StartOfWeekIsSunday | src/Component/Filter.jsx:16 | `startOfWeek` of a valid day is the valid Sunday on or before it, as many days back as the day's weekday number |
| Weeks.EndOfWeekIsSaturday | src/Component/Filter.jsx:17 | `endOfWeek` of a valid day is the valid Saturday on or after it, six minus its weekday number days on |
| Weeks.WeekBounds | src/Component/Filter.jsx:16-17 | a valid day's week runs from a Sunday to the Saturday six days later and contains the day |
| Weeks.WeekdayShift | src/Component/Filter.jsx:16-17 | days `k` apart are `k` weekdays apart, modulo seven |
| Weeks.KnownWeekdays | src/Component/Filter.jsx:16-17 | the day-of-week numbering agrees with `getDay`: 1 January 1970 is a Thursday, 1 January 2024 a Monday |
| Weeks.DayCountOrder | src/App.jsx:31-33 | on valid days the exact day count, which the instants are built on, follows calendar order in both directions |
| Instants.CustomFromDropsItsDayEastOfUtc | src/Component/Filter.jsx:25 | east of UTC, a record dated on the typed start day fails the date test |
| Instants.CustomToDropsItsDayWestOfUtc | src/Component/Filter.jsx:26 | west of UTC, a record dated on the typed end day fails the date test |
| Instants.CustomSingleDayEmptyInIndia | src/Component/Filter.jsx:25-26 | in UTC+5:30 the custom range 1 February to 1 February drops the record dated 1 February |
| Instants.CorrectedCustomMatchesCalendar | src/App.jsx:32-33 | with custom dates read as local days, the instant test equals the inclusive calendar-day test in every zone |
| Instants.PresetMatchesCalendar | src/Component/Filter.jsx:18-23 | a preset range from local midnight to the last local millisecond admits a record exactly when its day lies in the range, in every zone |
| Scenarios.SampleExpenses | src/Component/Charts.jsx:9-10 | of a salary and two food expenses, the expense filter keeps the two expenses in order |
| Scenarios.SamplePie | src/Component/Charts.jsx:9-19 | a salary plus two food expenses of 50 and 30 give one Food slice of 80 |
| Scenarios.SampleMonthly | src/Component/Charts.jsx:22-27 | before sorting, the sample reduces to a January bucket (1000 income, 50 expense) followed by a February bucket (0 income, 30 expense) |
| Scenarios.SampleLine | src/Component/Charts.jsx:22-29 | the same records give January (1000 income, 50 expense) and then February (0 income, 30 expense) |
| Scenarios.SampleFoodView | src/App.jsx:29-38 | filtering the sample by Food keeps the two food records in order |
| Scenarios.SampleFoodExport | src/App.jsx:40-47 | the export of the Food view is the two food records' rows, in order |
| Scenarios.SampleSingleDay | src/App.jsx:32-33 | the single-day range on 1 February keeps only the February record |

## Findings

| source | as written | input that shows it | evidently intended | confidence | as-written member | corrected member |
|---|---|---|---|---|---|---|
| src/Component/Filter.jsx:25 | the custom start date is parsed with `new Date("yyyy-MM-dd")`, which reads a date-only string as midnight UTC; the record's date is parsed from its locale string as local midnight (in a month-first locale such as en-US, where that string reads back as the stamped day) | zone UTC+5:30; custom from 2024-02-01; a record dated 2024-02-01: its local midnight is 18:30 UTC on 31 January, before the bound, so it is dropped | the start day is included, as it is for the presets | not executed; follows from the ECMAScript rule that date-only ISO strings are UTC | Instants.CustomFromDropsItsDayEastOfUtc | Instants.CorrectedCustomMatchesCalendar |
| src/Component/Filter.jsx:26 | the custom end date is parsed the same way, as midnight UTC, while the record's locale string reads back as local midnight (month-first locale) | zone UTC-5; custom to 2024-02-01; a record dated 2024-02-01: its local midnight is 05:00 UTC on 1 February, after the bound, so it is dropped | the end day is included, as it is for the presets | not executed; follows from the ECMAScript rule that date-only ISO strings are UTC | Instants.CustomToDropsItsDayWestOfUtc | Instants.CorrectedCustomMatchesCalendar |

The rest of the model compares calendar days (`App.MatchesDate`), which is
the corrected behaviour.

## Left out

- Loading the ledger from and saving it to `localStorage` (src/App.jsx:17-27) is browser storage I/O. The model starts from an arbitrary ledger, and records read back from storage are not re-validated by the source either.
- CSV serialisation, the `Blob` and the download (src/App.jsx:48-55) are library and browser calls. The model stops at the row sequence handed to `Papa.unparse`.
- Rendering, `alert`, chart colours and React's update scheduling are left out. Each handler is a pure step from state to new state and emitted value.
- The custom date inputs (src/Component/Filter.jsx:81, 83) set a custom date and then call the range handler in the same event. That handler still sees the previous date, so the emitted bounds lag one edit behind. This is an open issue that the model does not include: it has no per-input handler.
- Time of day is modelled only in `Instants`. The rest of the model compares calendar days, which treats preset bounds as whole days (`Instants.PresetMatchesCalendar` shows this matches) and custom bounds as corrected.
- Record dates are assumed to read back as the day they were stamped with, which holds only in month-first locales such as en-US. The date string comes from `toLocaleDateString()` (src/Component/TransactionForm.jsx:24) and is parsed with `new Date` (src/App.jsx:31, src/Component/Charts.jsx:23). In a day-first locale (en-GB, en-IN, fr-FR) 1 February 2024 becomes "01/02/2024", which parses as 2 January, so the record is filtered and charted under the wrong day and month. A day above 12 ("13/02/2024") gives an Invalid Date: the filter's comparisons are then false, so a ranged view drops the record, and `format(date, 'yyyy-MM')` in the line-chart reduce throws a RangeError, so the whole chart fails. None of this is modelled; dates are valid calendar days.
- Amounts are exact reals. Floating-point rounding of the sums and the `toFixed` display are left out.
- The amount field is the number `parseFloat` reads, or absent when the field is empty. Text that does not parse is left out, because a number input yields an empty value for it.
- The form's other field handlers and `handleKeyPress` are plain state updates or call `handleSubmit`, so only `handleSubmit` is modelled.
- Recurring scheduling is left out: `addWeeks` and `addMonths` are imported but never called, so `nextDate` is only set equal to `startDate`.
- Uniqueness of `Date.now()` ids is left out; the id is a parameter. `App.DeleteUndoesAdd` assumes the id is fresh, and two records with one id are deleted together.
- Categories and types are closed enumerations. A category string other than `'all'` and the six categories cannot be expressed, and an unknown type cannot occur.
- Text.Lower: maps only the ASCII capitals A-Z, not JavaScript's full Unicode case mapping, so searches on non-ASCII letters are modelled only for case-exact text.
- Dates.FormatMonthKeyOrder: proved for the years 1 to 9999 only, where `yyyy` prints the year itself in exactly four digits. `localeCompare` is modelled as code-unit order, which agrees with collation on these digit-and-hyphen strings.
- Charts.LineDataSortedAsText: proved for the years 1 to 9999 only. Outside that range the source's `yyyy-MM` text keys (src/Component/Charts.jsx:23) differ from the model's month keys. Year 0 and earlier print as the era year `1 - year`, so year 0 prints "0001" like year 1, and the source adds the records of those two years' same month into one bucket (src/Component/Charts.jsx:24-25). From year 10000 on the year has five or more digits, so `localeCompare` puts "10000-01" before "9999-12" (src/Component/Charts.jsx:29). The model keys buckets by the year and month numbers and sorts them numerically, so it keeps such buckets apart and in chronological order. Only a hand-edited stored ledger reaches these years, because new records carry the current date.
- App.AddTransaction: carries no contract of its own. Its behaviour is stated by `App.DeleteUndoesAdd`, `App.FilterAfterAdd` and `TransactionForm.SubmitKeepsLedgerWellFormed`.
- SummaryCards, TransactionList, DarkModeToggle and MathBackground are not part of this model.
- Charts.PieData: carries no contract of its own. Its behaviour is stated by `Charts.PieDataSpec` and `Charts.PieIgnoresIncome`.
- Charts.MonthlyData: carries no contract of its own. Its behaviour is stated by `Charts.TallyMonthsSpec`.
- Charts.LineData: carries no contract of its own. Its behaviour is stated by `Charts.LineDataSpec`.
- App.HandleExport: carries no contract of its own. Its behaviour is stated by `App.ExportFollowsView`.
- App.Passes: a predicate with no contract. It is the test `App.FilterSelectsPassing` and `App.FilteredTransactions` are stated with.
- FilterPanel.RangeBounds: carries no contract of its own. Its behaviour is stated by `FilterPanel.HandleDateRangeChange`, `FilterPanel.PresetsContainToday`, `FilterPanel.ThisWeekRunsSundayToSaturday`, `FilterPanel.ThisMonthSelectsCurrentMonth` and `FilterPanel.Last3MonthsSelectsThreeMonths`.
- FilterPanel.GetDateFrom: carries no contract of its own. Its behaviour is stated by `FilterPanel.GettersAgreeWithRangeChange`.
- FilterPanel.GetDateTo: carries no contract of its own. Its behaviour is stated by `FilterPanel.GettersAgreeWithRangeChange`.
- Text.Trim: carries no contract of its own. Its behaviour is stated by `Text.TrimIsCore`, `Text.TrimEmptyIff` and `Text.TrimIdempotent`.
- Text.Includes: carries no contract of its own. Its behaviour is stated by `Text.IncludesIff`.
- Dates.StartOfMonth: carries no contract of its own. Its behaviour is stated by `Dates.MonthBoundsContain`.
- Dates.EndOfMonth: carries no contract of its own. Its behaviour is stated by `Dates.MonthBoundsContain`.
- Dates.SubMonths: carries no contract of its own. Its behaviour is stated by `Dates.SubMonthsIndex`.
- Weeks.StartOfWeek: carries no contract of its own. Its behaviour is stated by `Weeks.StartOfWeekIsSunday` and `Weeks.WeekBounds`.
- Weeks.EndOfWeek: carries no contract of its own. Its behaviour is stated by `Weeks.EndOfWeekIsSaturday` and `Weeks.WeekBounds`.
- `Instants` uses one fixed UTC offset per zone, so daylight-saving changes between two dates are not modelled.
- The week bounds' times of day (00:00 for `startOfWeek`, 23:59:59.999 for `endOfWeek`) are not part of `Weeks`, which works on calendar days. `Instants` models those times.
- Weeks.DayCount: carries no contract of its own. Its behaviour is stated by `Weeks.YearLength`, `Weeks.MonthsFillYear`, `Weeks.PrevDayCount` and `Weeks.NextDayCount`.
- Weeks.Weekday: its contract only bounds the result to 0..6. Its meaning is stated by `Weeks.WeekdayShift` and `Weeks.KnownWeekdays`.
- Weeks.PrevDay: its contract only keeps the month in 1..12. Its behaviour is stated by `Weeks.PrevDayStep`.
- Weeks.NextDay: its contract only keeps the month in 1..12. Its behaviour is stated by `Weeks.NextDayStep`.
- Weeks.DaysBack: its contract only keeps the month in 1..12. Its behaviour is stated by `Weeks.DaysBackSpec`.
- Weeks.DaysForward: its contract only keeps the month in 1..12. Its behaviour is stated by `Weeks.DaysForwardSpec`.

=== FILE: app.dfy ===
/** The ledger logic of the top-level component: the filter predicate and the
    filtered view, the CSV row projection, and adding and deleting entries. */
module App {
  import opened Dates
  import opened Domain
  import opened Text
  import opened Seqs

  // ---- filter configuration and predicate -----------------------------------

  /** The category filter: the wildcard `'all'` or one category. */
  datatype CategoryFilter = AnyCategory | Only(category: Category)

  /** `{ dateFrom, dateTo, category, search }`; a `None` bound is `null`. */
  datatype FilterConfig = FilterConfig(
    dateFrom: Option<Date>,
    dateTo: Option<Date>,
    category: CategoryFilter,
    search: string)

  /** The configuration the application starts with. */
  const InitialFilters := FilterConfig(None, None, AnyCategory, "")

  /** Inclusive date-range test; a missing bound imposes nothing. */
  predicate MatchesDate(f: FilterConfig, d: Date)
  {
    (f.dateFrom.None? || DateLe(f.dateFrom.value, d))
    && (f.dateTo.None? || DateLe(d, f.dateTo.value))
  }

  /** `'all'` accepts every category, otherwise only the exact one. */
  predicate MatchesCategory(f: FilterConfig, c: Category)
  {
    f.category == AnyCategory || f.category == Only(c)
  }

  /** An empty search accepts everything; otherwise the lower-cased search
      text must occur in the lower-cased description. */
  predicate MatchesSearch(f: FilterConfig, description: string)
  {
    |f.search| == 0 || Includes(Lower(description), Lower(f.search))
  }

  /** The predicate `getFilteredTransactions` applies to each record. */
  predicate Passes(f: FilterConfig, t: Transaction)
  {
    MatchesDate(f, t.date) && MatchesCategory(f, t.category) && MatchesSearch(f, t.description)
  }

  function Criteria(f: FilterConfig): Transaction -> bool
  {
    (t: Transaction) => Passes(f, t)
  }

  /** `getFilteredTransactions()`: a record is in the view exactly when it is in
      the ledger and passes the date, category and search tests together. */
  function FilteredTransactions(ledger: seq<Transaction>, f: FilterConfig): (r: seq<Transaction>)
    ensures |r| <= |ledger|
    ensures forall t :: t in r <==> t in ledger && Passes(f, t)
  {
    Keep(ledger, Criteria(f))
  }

  /** The view is an order-preserving subsequence of the ledger made of exactly
      the records, at positions `idx`, that pass the filter. */
  lemma FilterSelectsPassing(ledger: seq<Transaction>, f: FilterConfig) returns (idx: seq<int>)
    ensures IsSubseq(FilteredTransactions(ledger, f), ledger)
    ensures |idx| == |FilteredTransactions(ledger, f)| && Increasing(idx)
    ensures forall k :: 0 <= k < |idx| ==>
              0 <= idx[k] < |ledger| && FilteredTransactions(ledger, f)[k] == ledger[idx[k]]
    ensures forall i :: 0 <= i < |ledger| ==> (i in idx <==> Passes(f, ledger[i]))
  {
    KeepIsSubseq(ledger, Criteria(f));
    idx := KeepPositions(ledger, Criteria(f));
  }

  /** Filtering the view again with the same configuration changes nothing. */
  lemma FilterIdempotent(ledger: seq<Transaction>, f: FilterConfig)
    ensures FilteredTransactions(FilteredTransactions(ledger, f), f) == FilteredTransactions(ledger, f)
  {
    KeepIdempotent(ledger, Criteria(f));
  }

  /** With the initial configuration (no bounds, `'all'`, empty search) the
      view is the whole ledger. */
  lemma InitialFiltersShowEverything(ledger: seq<Transaction>)
    ensures FilteredTransactions(ledger, InitialFilters) == ledger
  {
    KeepAll(ledger, Criteria(InitialFilters));
  }

  /** Both bounds are inclusive: with `dateFrom == dateTo == d` and no other
      constraint, the view holds exactly the records dated `d`. */
  lemma SingleDayRange(ledger: seq<Transaction>, d: Date)
    ensures forall t :: t in FilteredTransactions(ledger, FilterConfig(Some(d), Some(d), AnyCategory, ""))
                        <==> t in ledger && t.date == d
  {
    forall t: Transaction
      ensures DateLe(d, t.date) && DateLe(t.date, d) <==> t.date == d
    {
      DateLeTotalOrder(d, t.date, d);
    }
  }

  /** A caller that sets `dateTo` before `dateFrom` gets an empty view, not an error. */
  lemma InvertedRangeIsEmpty(ledger: seq<Transaction>, f: FilterConfig)
    requires f.dateFrom.Some? && f.dateTo.Some?
    requires DateLe(f.dateTo.value, f.dateFrom.value) && f.dateTo.value != f.dateFrom.value
    ensures FilteredTransactions(ledger, f) == []
  {
    forall t | t in ledger
      ensures !Passes(f, t)
    {
      DateLeTotalOrder(f.dateTo.value, f.dateFrom.value, t.date);
      DateLeTotalOrder(f.dateFrom.value, t.date, f.dateTo.value);
    }
    KeepNone(ledger, Criteria(f));
  }

  /** `wide` accepts at least what `narrow` accepts: its date range contains
      the narrower one, its category is `'all'` or the same, and its search is
      cleared or the same. */
  predicate Relaxes(wide: FilterConfig, narrow: FilterConfig)
  {
    && (wide.dateFrom.None? || (narrow.dateFrom.Some? && DateLe(wide.dateFrom.value, narrow.dateFrom.value)))
    && (wide.dateTo.None? || (narrow.dateTo.Some? && DateLe(narrow.dateTo.value, wide.dateTo.value)))
    && (wide.category == AnyCategory || wide.category == narrow.category)
    && (|wide.search| == 0 || wide.search == narrow.search)
  }

  /** Widening the date range, relaxing the category to `'all'` or clearing the
      search never removes a record from the view, nor reorders it. */
  lemma FilterMonotone(ledger: seq<Transaction>, narrow: FilterConfig, wide: FilterConfig)
    requires Relaxes(wide, narrow)
    ensures IsSubseq(FilteredTransactions(ledger, narrow), FilteredTransactions(ledger, wide))
  {
    forall t | Passes(narrow, t)
      ensures Passes(wide, t)
    {
      if wide.dateFrom.Some? {
        DateLeTotalOrder(wide.dateFrom.value, narrow.dateFrom.value, t.date);
      }
      if wide.dateTo.Some? {
        DateLeTotalOrder(t.date, narrow.dateTo.value, wide.dateTo.value);
      }
    }
    KeepMonotone(ledger, Criteria(narrow), Criteria(wide));
  }

  /** The search ignores letter case on both sides. */
  lemma SearchIgnoresCase(f: FilterConfig, description: string)
    ensures MatchesSearch(f, description) <==> MatchesSearch(f, Lower(description))
    ensures MatchesSearch(f, description) <==> MatchesSearch(f.(search := Lower(f.search)), description)
  {
    LowerIdempotent(description);
    LowerIdempotent(f.search);
  }

  /** A description containing the search text literally always matches. */
  lemma SearchFindsOccurrence(f: FilterConfig, description: string, i: int)
    requires OccursAt(description, f.search, i)
    ensures MatchesSearch(f, description)
  {
    LowerSlice(description, i, i + |f.search|);
    assert OccursAt(Lower(description), Lower(f.search), i);
    IncludesIff(Lower(description), Lower(f.search));
  }

  // ---- export projection -----------------------------------------------------

  /** One CSV row: the columns `Date, Description, Amount, Type, Category`. */
  datatype ExportRow = ExportRow(date: Date, description: string, amount: real, kind: Kind, category: Category)

  /** The row `handleExport` builds from one record. */
  function ToRow(t: Transaction): ExportRow
  {
    ExportRow(t.date, t.description, t.amount, t.kind, t.category)
  }

  /** The `.map(...)` of `handleExport`: one row per record, in order, each
      copying the five exported fields unchanged. */
  function ExportRows(ts: seq<Transaction>): (rows: seq<ExportRow>)
    ensures |rows| == |ts|
    ensures forall k :: 0 <= k < |ts| ==>
              && rows[k].date == ts[k].date && rows[k].description == ts[k].description
              && rows[k].amount == ts[k].amount && rows[k].kind == ts[k].kind
              && rows[k].category == ts[k].category
    decreases |ts|
  {
    if |ts| == 0 then [] else [ToRow(ts[0])] + ExportRows(ts[1..])
  }

  /** The rows lose nothing among the five exported fields: equal row
      sequences come only from record sequences that agree on those fields. */
  lemma ExportRowsLossless(a: seq<Transaction>, b: seq<Transaction>)
    requires ExportRows(a) == ExportRows(b)
    ensures |a| == |b|
    ensures forall k :: 0 <= k < |a| ==>
              && a[k].date == b[k].date && a[k].description == b[k].description
              && a[k].amount == b[k].amount && a[k].kind == b[k].kind
              && a[k].category == b[k].category
  {
    forall k | 0 <= k < |a|
      ensures a[k].date == b[k].date && a[k].description == b[k].description
      ensures a[k].amount == b[k].amount && a[k].kind == b[k].kind && a[k].category == b[k].category
    {
      assert ExportRows(a)[k] == ExportRows(b)[k];
    }
  }

  /** `handleExport` exports the same view the list and the charts show. */
  function HandleExport(ledger: seq<Transaction>, f: FilterConfig): seq<ExportRow>
  {
    ExportRows(FilteredTransactions(ledger, f))
  }

  /** Row `k` of the export is the row of the ledger record at position
      `idx[k]`; the positions increase and are exactly those that pass. */
  lemma ExportFollowsView(ledger: seq<Transaction>, f: FilterConfig) returns (idx: seq<int>)
    ensures |HandleExport(ledger, f)| == |idx| && Increasing(idx)
    ensures forall k :: 0 <= k < |idx| ==>
              0 <= idx[k] < |ledger| && HandleExport(ledger, f)[k] == ToRow(ledger[idx[k]])
    ensures forall i :: 0 <= i < |ledger| ==> (i in idx <==> Passes(f, ledger[i]))
  {
    idx := FilterSelectsPassing(ledger, f);
  }

  // ---- ledger mutations ------------------------------------------------------

  /** `addTransaction`: the new record goes in front. */
  function AddTransaction(ledger: seq<Transaction>, t: Transaction): seq<Transaction>
  {
    [t] + ledger
  }

  function IdIsNot(id: int): Transaction -> bool
  {
    (t: Transaction) => t.id != id
  }

  /** `deleteTransaction`: drops every record carrying `id` and keeps all the
      others. */
  function DeleteTransaction(ledger: seq<Transaction>, id: int): (r: seq<Transaction>)
    ensures forall t :: t in r <==> t in ledger && t.id != id
    ensures id !in Ids(r)
  {
    Keep(ledger, IdIsNot(id))
  }

  /** Deletion keeps the surviving records in their original order, and an id
      nobody carries leaves the ledger unchanged. */
  lemma DeleteKeepsOrder(ledger: seq<Transaction>, id: int)
    ensures IsSubseq(DeleteTransaction(ledger, id), ledger)
    ensures id !in Ids(ledger) ==> DeleteTransaction(ledger, id) == ledger
  {
    KeepIsSubseq(ledger, IdIsNot(id));
    if id !in Ids(ledger) {
      KeepAll(ledger, IdIsNot(id));
    }
  }

  /** Deletion keeps every other record, duplicates included, in order: the
      result is the ledger read at increasing positions, and those positions
      are exactly the ones whose record carries another id. */
  lemma DeleteSelectsOthers(ledger: seq<Transaction>, id: int) returns (idx: seq<int>)
    ensures |idx| == |DeleteTransaction(ledger, id)| && Increasing(idx)
    ensures forall k :: 0 <= k < |idx| ==> 0 <= idx[k] < |ledger| && DeleteTransaction(ledger, id)[k] == ledger[idx[k]]
    ensures forall i :: 0 <= i < |ledger| ==> (i in idx <==> ledger[i].id != id)
  {
    idx := KeepPositions(ledger, IdIsNot(id));
  }

  /** Deleting a freshly added record by its (new) id restores the ledger. */
  lemma DeleteUndoesAdd(ledger: seq<Transaction>, t: Transaction)
    requires t.id !in Ids(ledger)
    ensures DeleteTransaction(AddTransaction(ledger, t), t.id) == ledger
  {
    KeepCons(t, ledger, IdIsNot(t.id));
    DeleteKeepsOrder(ledger, t.id);
  }

  /** After an add, the view gains the new record in front exactly when it
      passes the current filter; the rest of the view is unchanged. */
  lemma FilterAfterAdd(ledger: seq<Transaction>, t: Transaction, f: FilterConfig)
    ensures FilteredTransactions(AddTransaction(ledger, t), f)
            == (if Passes(f, t) then [t] + FilteredTransactions(ledger, f) else FilteredTransactions(ledger, f))
  {
    KeepCons(t, ledger, Criteria(f));
  }
}

=== FILE: charts.dfy ===
/** The chart data: expense totals per category for the pie chart, and
    income/expense totals per calendar month, in month order, for the line
    chart. Both accumulators are JavaScript objects whose keys keep insertion
    order; they are modelled as association lists in first-occurrence order. */
module Charts {
  import opened Dates
  import opened Domain
  import opened Seqs

  // ---- reference sums ---------------------------------------------------------

  /** Sum of the amounts of the expense records of category `c`. */
  function ExpenseIn(ts: seq<Transaction>, c: Category): real
    decreases |ts|
  {
    if |ts| == 0 then 0.0
    else (if ts[0].kind == Expense && ts[0].category == c then ts[0].amount else 0.0) + ExpenseIn(ts[1..], c)
  }

  /** Sum of the amounts of the records of category `c`, whatever their kind. */
  function AmountIn(ts: seq<Transaction>, c: Category): real
    decreases |ts|
  {
    if |ts| == 0 then 0.0
    else (if ts[0].category == c then ts[0].amount else 0.0) + AmountIn(ts[1..], c)
  }

  /** Sum of the amounts of all expense records. */
  function TotalExpense(ts: seq<Transaction>): real
    decreases |ts|
  {
    if |ts| == 0 then 0.0
    else (if ts[0].kind == Expense then ts[0].amount else 0.0) + TotalExpense(ts[1..])
  }

  /** Sum of all amounts. */
  function TotalAmount(ts: seq<Transaction>): real
    decreases |ts|
  {
    if |ts| == 0 then 0.0 else ts[0].amount + TotalAmount(ts[1..])
  }

  /** Sum of the amounts of kind `kind` dated in month `k`. */
  function MonthSum(ts: seq<Transaction>, k: MonthKey, kind: Kind): real
    decreases |ts|
  {
    if |ts| == 0 then 0.0
    else (if MonthOf(ts[0].date) == k && ts[0].kind == kind then ts[0].amount else 0.0) + MonthSum(ts[1..], k, kind)
  }

  function ExpenseCategories(ts: seq<Transaction>): set<Category>
  {
    set t | t in ts && t.kind == Expense :: t.category
  }

  function Categories(ts: seq<Transaction>): set<Category>
  {
    set t | t in ts :: t.category
  }

  function MonthsOf(ts: seq<Transaction>): set<MonthKey>
  {
    set t | t in ts :: MonthOf(t.date)
  }

  // ---- pie chart: expense totals by category ------------------------------------

  /** One `{ name, value }` entry of `pieData`. */
  datatype Slice = Slice(name: Category, value: real)

  predicate HasSlice(acc: seq<Slice>, c: Category)
    decreases |acc|
  {
    |acc| > 0 && (acc[0].name == c || HasSlice(acc[1..], c))
  }

  /** `acc[c] || 0`: the value stored under `c`, or 0 when there is none. */
  function SliceValue(acc: seq<Slice>, c: Category): real
    decreases |acc|
  {
    if |acc| == 0 then 0.0
    else if acc[0].name == c then acc[0].value
    else SliceValue(acc[1..], c)
  }

  /** No category has two entries. */
  predicate DistinctNames(acc: seq<Slice>)
    decreases |acc|
  {
    |acc| == 0 || (!HasSlice(acc[1..], acc[0].name) && DistinctNames(acc[1..]))
  }

  function SliceTotal(acc: seq<Slice>): real
    decreases |acc|
  {
    if |acc| == 0 then 0.0 else acc[0].value + SliceTotal(acc[1..])
  }

  /** The reducer step `acc[c] = (acc[c] || 0) + amount`: the entry for `c` is
      increased in place, or appended at the end when `c` is new. No other
      entry changes and no entry moves. */
  function AddToSlice(acc: seq<Slice>, c: Category, amount: real): (r: seq<Slice>)
    ensures |acc| <= |r| && forall j :: 0 <= j < |acc| ==> r[j].name == acc[j].name
    ensures forall d :: HasSlice(r, d) <==> HasSlice(acc, d) || d == c
    ensures forall d :: SliceValue(r, d) == SliceValue(acc, d) + (if d == c then amount else 0.0)
    ensures SliceTotal(r) == SliceTotal(acc) + amount
    ensures DistinctNames(acc) ==> DistinctNames(r)
    decreases |acc|
  {
    if |acc| == 0 then [Slice(c, amount)]
    else if acc[0].name == c then [Slice(c, acc[0].value + amount)] + acc[1..]
    else [acc[0]] + AddToSlice(acc[1..], c, amount)
  }

  /** `.reduce(step, acc)` over a sequence of records. */
  function TallyExpenses(acc: seq<Slice>, ts: seq<Transaction>): seq<Slice>
    decreases |ts|
  {
    if |ts| == 0 then acc
    else TallyExpenses(AddToSlice(acc, ts[0].category, ts[0].amount), ts[1..])
  }

  /** The test `pieData` filters the records with. */
  const IsExpense: Transaction -> bool := (t: Transaction) => t.kind == Expense

  /** `pieData`: the expense records reduced into per-category totals. */
  function PieData(ts: seq<Transaction>): seq<Slice>
  {
    TallyExpenses([], Keep(ts, IsExpense))
  }

  /** Folding records into an accumulator adds each record's amount to the
      entry of its category, creates entries only for categories that occur,
      and keeps existing entries where they are. */
  lemma {:induction false} TallyExpensesSpec(acc: seq<Slice>, ts: seq<Transaction>)
    ensures var r := TallyExpenses(acc, ts);
      && (|acc| <= |r| && forall j :: 0 <= j < |acc| ==> r[j].name == acc[j].name)
      && (forall c :: HasSlice(r, c) <==> HasSlice(acc, c) || c in Categories(ts))
      && (forall c :: SliceValue(r, c) == SliceValue(acc, c) + AmountIn(ts, c))
      && SliceTotal(r) == SliceTotal(acc) + TotalAmount(ts)
      && (DistinctNames(acc) ==> DistinctNames(r))
    decreases |ts|
  {
    if |ts| > 0 {
      var next := AddToSlice(acc, ts[0].category, ts[0].amount);
      TallyExpensesSpec(next, ts[1..]);
      assert Categories(ts) == {ts[0].category} + Categories(ts[1..]) by {
        assert forall t :: t in ts <==> t == ts[0] || t in ts[1..] by {
          assert ts == [ts[0]] + ts[1..];
        }
      }
    }
  }

  /** Restricting to expenses turns category sums into expense sums. */
  lemma {:induction false} ExpensesOnly(ts: seq<Transaction>)
    ensures forall c :: AmountIn(Keep(ts, IsExpense), c) == ExpenseIn(ts, c)
    ensures TotalAmount(Keep(ts, IsExpense)) == TotalExpense(ts)
    ensures Categories(Keep(ts, IsExpense)) == ExpenseCategories(ts)
    decreases |ts|
  {
    if |ts| > 0 {
      ExpensesOnly(ts[1..]);
      KeepCons(ts[0], ts[1..], IsExpense);
      assert ts == [ts[0]] + ts[1..];
    }
  }

  /** With distinct names, an entry's value is what the lookup finds. */
  lemma {:induction false} SliceValueOfMember(acc: seq<Slice>, s: Slice)
    requires DistinctNames(acc) && s in acc
    ensures SliceValue(acc, s.name) == s.value
    decreases |acc|
  {
    if acc[0] != s {
      assert s in acc[1..];
      SliceValueOfMember(acc[1..], s);
      SliceMemberHas(acc[1..], s);
    }
  }

  lemma {:induction false} SliceMemberHas(acc: seq<Slice>, s: Slice)
    requires s in acc
    ensures HasSlice(acc, s.name)
    decreases |acc|
  {
    if acc[0] != s {
      assert s in acc[1..];
      SliceMemberHas(acc[1..], s);
    }
  }

  /** `pieData` has one entry per category with at least one expense and no
      other; each entry's value is that category's expense sum; the values add
      up to the total expense; income never contributes. */
  lemma PieDataSpec(ts: seq<Transaction>)
    ensures DistinctNames(PieData(ts))
    ensures forall c :: HasSlice(PieData(ts), c) <==> c in ExpenseCategories(ts)
    ensures forall s :: s in PieData(ts) ==> s.value == ExpenseIn(ts, s.name)
    ensures SliceTotal(PieData(ts)) == TotalExpense(ts)
  {
    var es := Keep(ts, IsExpense);
    TallyExpensesSpec([], es);
    ExpensesOnly(ts);
    forall s | s in PieData(ts)
      ensures s.value == ExpenseIn(ts, s.name)
    {
      SliceValueOfMember(PieData(ts), s);
    }
  }

  /** The pie depends on the expense records only. */
  lemma PieIgnoresIncome(ts: seq<Transaction>)
    ensures PieData(Keep(ts, IsExpense)) == PieData(ts)
  {
    KeepIdempotent(ts, IsExpense);
  }

  /** An expense sum over positive amounts is positive as soon as the
      category has one expense. */
  lemma {:induction false} ExpenseInPositive(ts: seq<Transaction>, c: Category)
    requires forall t :: t in ts ==> t.amount > 0.0
    ensures ExpenseIn(ts, c) >= 0.0
    ensures c in ExpenseCategories(ts) ==> ExpenseIn(ts, c) > 0.0
    decreases |ts|
  {
    if |ts| > 0 {
      ExpenseInPositive(ts[1..], c);
      assert ts == [ts[0]] + ts[1..];
    }
  }

  /** With positive amounts (as the form guarantees) no pie entry is zero. */
  lemma PieValuesPositive(ts: seq<Transaction>)
    requires forall t :: t in ts ==> t.amount > 0.0
    ensures forall s :: s in PieData(ts) ==> s.value > 0.0
  {
    PieDataSpec(ts);
    forall s | s in PieData(ts)
      ensures s.value > 0.0
    {
      SliceMemberHas(PieData(ts), s);
      ExpenseInPositive(ts, s.name);
    }
  }

  // ---- line chart: totals by month ------------------------------------------------

  /** One `{ month, income, expense }` entry of `monthlyData` / `lineData`. */
  datatype MonthBucket = MonthBucket(month: MonthKey, income: real, expense: real)

  /** `acc[month][t.type] += t.amount`. */
  function Credit(b: MonthBucket, kind: Kind, amount: real): MonthBucket
  {
    match kind
    case Income => b.(income := b.income + amount)
    case Expense => b.(expense := b.expense + amount)
  }

  predicate HasMonth(acc: seq<MonthBucket>, k: MonthKey)
    decreases |acc|
  {
    |acc| > 0 && (acc[0].month == k || HasMonth(acc[1..], k))
  }

  /** The bucket stored under `k`, or an empty one when there is none. */
  function BucketOf(acc: seq<MonthBucket>, k: MonthKey): MonthBucket
    decreases |acc|
  {
    if |acc| == 0 then MonthBucket(k, 0.0, 0.0)
    else if acc[0].month == k then acc[0]
    else BucketOf(acc[1..], k)
  }

  predicate DistinctMonths(acc: seq<MonthBucket>)
    decreases |acc|
  {
    |acc| == 0 || (!HasMonth(acc[1..], acc[0].month) && DistinctMonths(acc[1..]))
  }

  /** Sum of `income + expense` over all buckets. */
  function BucketsTotal(acc: seq<MonthBucket>): real
    decreases |acc|
  {
    if |acc| == 0 then 0.0 else acc[0].income + acc[0].expense + BucketsTotal(acc[1..])
  }

  /** The reducer step of `monthlyData`: the bucket of month `k` is created
      with zero totals when missing, then credited with the amount. */
  function AddToMonth(acc: seq<MonthBucket>, k: MonthKey, kind: Kind, amount: real): (r: seq<MonthBucket>)
    ensures forall m :: HasMonth(r, m) <==> HasMonth(acc, m) || m == k
    ensures forall m :: BucketOf(r, m).income
                        == BucketOf(acc, m).income + (if m == k && kind == Income then amount else 0.0)
    ensures forall m :: BucketOf(r, m).expense
                        == BucketOf(acc, m).expense + (if m == k && kind == Expense then amount else 0.0)
    ensures BucketsTotal(r) == BucketsTotal(acc) + amount
    ensures DistinctMonths(acc) ==> DistinctMonths(r)
    decreases |acc|
  {
    if |acc| == 0 then [Credit(MonthBucket(k, 0.0, 0.0), kind, amount)]
    else if acc[0].month == k then [Credit(acc[0], kind, amount)] + acc[1..]
    else [acc[0]] + AddToMonth(acc[1..], k, kind, amount)
  }

  function TallyMonths(acc: seq<MonthBucket>, ts: seq<Transaction>): seq<MonthBucket>
    decreases |ts|
  {
    if |ts| == 0 then acc
    else TallyMonths(AddToMonth(acc, MonthOf(ts[0].date), ts[0].kind, ts[0].amount), ts[1..])
  }

  /** `Object.values(monthlyData)`, in first-occurrence order. */
  function MonthlyData(ts: seq<Transaction>): seq<MonthBucket>
  {
    TallyMonths([], ts)
  }

  lemma {:induction false} TallyMonthsSpec(acc: seq<MonthBucket>, ts: seq<Transaction>)
    ensures var r := TallyMonths(acc, ts);
      && (forall k :: HasMonth(r, k) <==> HasMonth(acc, k) || k in MonthsOf(ts))
      && (forall k :: BucketOf(r, k).income == BucketOf(acc, k).income + MonthSum(ts, k, Income))
      && (forall k :: BucketOf(r, k).expense == BucketOf(acc, k).expense + MonthSum(ts, k, Expense))
      && BucketsTotal(r) == BucketsTotal(acc) + TotalAmount(ts)
      && (DistinctMonths(acc) ==> DistinctMonths(r))
    decreases |ts|
  {
    if |ts| > 0 {
      var next := AddToMonth(acc, MonthOf(ts[0].date), ts[0].kind, ts[0].amount);
      TallyMonthsSpec(next, ts[1..]);
      assert MonthsOf(ts) == {MonthOf(ts[0].date)} + MonthsOf(ts[1..]) by {
        assert forall t :: t in ts <==> t == ts[0] || t in ts[1..] by {
          assert ts == [ts[0]] + ts[1..];
        }
      }
    }
  }

  lemma {:induction false} BucketMemberHas(acc: seq<MonthBucket>, b: MonthBucket)
    requires b in acc
    ensures HasMonth(acc, b.month)
    decreases |acc|
  {
    if acc[0] != b {
      assert b in acc[1..];
      BucketMemberHas(acc[1..], b);
    }
  }

  lemma {:induction false} HasMonthMember(acc: seq<MonthBucket>, k: MonthKey) returns (b: MonthBucket)
    requires HasMonth(acc, k)
    ensures b in acc && b.month == k
    decreases |acc|
  {
    if acc[0].month == k {
      b := acc[0];
    } else {
      b := HasMonthMember(acc[1..], k);
    }
  }

  /** With distinct months, a bucket is what the lookup of its month finds. */
  lemma {:induction false} BucketOfMember(acc: seq<MonthBucket>, b: MonthBucket)
    requires DistinctMonths(acc) && b in acc
    ensures BucketOf(acc, b.month) == b
    decreases |acc|
  {
    if acc[0] != b {
      assert b in acc[1..];
      BucketOfMember(acc[1..], b);
      BucketMemberHas(acc[1..], b);
    }
  }

  // ---- sorting by month ---------------------------------------------------------

  /** Strictly increasing months: sorted, with no month twice. */
  predicate Ascending(s: seq<MonthBucket>)
  {
    forall i, j :: 0 <= i < j < |s| ==> KeyLt(s[i].month, s[j].month)
  }

  /** Insertion of one bucket into a sorted sequence. */
  function Insert(b: MonthBucket, s: seq<MonthBucket>): (r: seq<MonthBucket>)
    ensures multiset(r) == multiset(s) + multiset{b}
    ensures BucketsTotal(r) == BucketsTotal(s) + b.income + b.expense
    decreases |s|
  {
    if |s| == 0 then [b]
    else if KeyLt(b.month, s[0].month) then [b] + s
    else
      assert s == [s[0]] + s[1..];
      [s[0]] + Insert(b, s[1..])
  }

  /** A bucket placed before an increasing sequence of later months keeps it increasing. */
  lemma {:induction false} ConsAscending(h: MonthBucket, t: seq<MonthBucket>)
    requires Ascending(t)
    requires forall x :: x in t ==> KeyLt(h.month, x.month)
    ensures Ascending([h] + t)
  {
    var r := [h] + t;
    forall i, j | 0 <= i < j < |r|
      ensures KeyLt(r[i].month, r[j].month)
    {
      assert r[j] == t[j - 1] && t[j - 1] in t;
      if i > 0 {
        assert r[i] == t[i - 1];
      }
    }
  }

  /** Insertion adds the one bucket and nothing else. */
  lemma InsertMember(b: MonthBucket, s: seq<MonthBucket>, x: MonthBucket)
    requires x in Insert(b, s)
    ensures x == b || x in s
  {
    assert x in multiset(Insert(b, s));
  }

  /** Inserting a bucket of a new month into an increasing sequence keeps it increasing. */
  lemma {:induction false} InsertAscending(b: MonthBucket, s: seq<MonthBucket>)
    requires Ascending(s)
    requires forall x :: x in s ==> x.month != b.month
    ensures Ascending(Insert(b, s))
    decreases |s|
  {
    if |s| > 0 && !KeyLt(b.month, s[0].month) {
      var t := Insert(b, s[1..]);
      assert Ascending(s[1..]);
      InsertAscending(b, s[1..]);
      forall x | x in t
        ensures KeyLt(s[0].month, x.month)
      {
        InsertMember(b, s[1..], x);
        if x != b {
          var j :| 0 <= j < |s[1..]| && s[1..][j] == x;
          assert s[j + 1] == x;
        }
      }
      ConsAscending(s[0], t);
    } else if |s| > 0 {
      forall x | x in s
        ensures KeyLt(b.month, x.month)
      {
        var j :| 0 <= j < |s| && s[j] == x;
        if j > 0 {
          assert KeyLt(s[0].month, s[j].month);
        }
      }
      ConsAscending(b, s);
    }
  }

  /** The `.sort(...)` by month: a permutation of its input with the same grand total. */
  function SortByMonth(s: seq<MonthBucket>): (r: seq<MonthBucket>)
    ensures multiset(r) == multiset(s)
    ensures BucketsTotal(r) == BucketsTotal(s)
    decreases |s|
  {
    if |s| == 0 then []
    else
      assert s == [s[0]] + s[1..];
      Insert(s[0], SortByMonth(s[1..]))
  }

  /** When no month occurs twice, the sorted buckets are strictly increasing by month. */
  lemma {:induction false} SortAscending(s: seq<MonthBucket>)
    requires DistinctMonths(s)
    ensures Ascending(SortByMonth(s))
    decreases |s|
  {
    if |s| > 0 {
      var rest := SortByMonth(s[1..]);
      SortAscending(s[1..]);
      forall x | x in rest
        ensures x.month != s[0].month
      {
        assert x in multiset(s[1..]);
        BucketMemberHas(s[1..], x);
      }
      InsertAscending(s[0], rest);
    }
  }

  /** `lineData`. */
  function LineData(ts: seq<Transaction>): seq<MonthBucket>
  {
    SortByMonth(MonthlyData(ts))
  }

  /** `lineData` holds one bucket per month in which some record is dated and
      no other, in strictly increasing month order; each bucket's totals are the
      income and expense sums of that month; and the grand total of all buckets
      is the sum of all amounts. */
  lemma LineDataSpec(ts: seq<Transaction>)
    ensures Ascending(LineData(ts))
    ensures forall k :: (exists b :: b in LineData(ts) && b.month == k) <==> k in MonthsOf(ts)
    ensures forall b :: b in LineData(ts) ==>
              b.income == MonthSum(ts, b.month, Income) && b.expense == MonthSum(ts, b.month, Expense)
    ensures BucketsTotal(LineData(ts)) == TotalAmount(ts)
  {
    var monthly := MonthlyData(ts);
    TallyMonthsSpec([], ts);
    SortAscending(monthly);
    var line := LineData(ts);
    assert forall b :: b in line <==> b in monthly by {
      assert multiset(line) == multiset(monthly);
      forall b
        ensures b in line <==> b in monthly
      {
        assert b in line <==> b in multiset(line);
      }
    }
    forall k
      ensures (exists b :: b in line && b.month == k) <==> k in MonthsOf(ts)
    {
      if k in MonthsOf(ts) {
        var b := HasMonthMember(monthly, k);
        assert b in line;
      }
      if b :| b in line && b.month == k {
        BucketMemberHas(monthly, b);
      }
    }
    forall b | b in line
      ensures b.income == MonthSum(ts, b.month, Income) && b.expense == MonthSum(ts, b.month, Expense)
    {
      BucketOfMember(monthly, b);
    }
  }

  /** Every record lands in exactly one bucket of `lineData`: the one of its month. */
  lemma EachRecordInOneBucket(ts: seq<Transaction>, t: Transaction)
    requires t in ts
    ensures exists i :: 0 <= i < |LineData(ts)| && LineData(ts)[i].month == MonthOf(t.date)
    ensures forall i, j ::
              (0 <= i < |LineData(ts)| && 0 <= j < |LineData(ts)|
               && LineData(ts)[i].month == MonthOf(t.date) && LineData(ts)[j].month == MonthOf(t.date)) ==> i == j
  {
    LineDataSpec(ts);
    var line := LineData(ts);
    assert MonthOf(t.date) in MonthsOf(ts);
    var b :| b in line && b.month == MonthOf(t.date);
    var i :| 0 <= i < |line| && line[i] == b;
  }

  /** The source compares the `yyyy-MM` texts; for the years 1 to 9999 the
      buckets of `lineData` are strictly increasing in that text order too. */
  lemma LineDataSortedAsText(ts: seq<Transaction>)
    requires forall t :: t in ts ==> 1 <= t.date.year <= 9999 && 1 <= t.date.month <= 12
    ensures forall i, j :: 0 <= i < j < |LineData(ts)| ==>
              && 1 <= LineData(ts)[i].month.year <= 9999 && 1 <= LineData(ts)[i].month.month <= 12
              && 1 <= LineData(ts)[j].month.year <= 9999 && 1 <= LineData(ts)[j].month.month <= 12
              && StrLt(FormatMonthKey(LineData(ts)[i].month), FormatMonthKey(LineData(ts)[j].month))
  {
    LineDataSpec(ts);
    var line := LineData(ts);
    forall i | 0 <= i < |line|
      ensures 1 <= line[i].month.year <= 9999 && 1 <= line[i].month.month <= 12
    {
      assert line[i] in line;
      assert line[i].month in MonthsOf(ts);
    }
    forall i, j | 0 <= i < j < |line|
      ensures StrLt(FormatMonthKey(line[i].month), FormatMonthKey(line[j].month))
    {
      assert line[i] in line && line[j] in line;
      FormatMonthKeyOrder(line[i].month, line[j].month);
    }
  }

  /** No records, no chart data. */
  lemma EmptyInputNoData()
    ensures PieData([]) == [] && LineData([]) == []
  {
  }
}

=== FILE: dates.dfy ===
/** Calendar dates as the ledger uses them: day-level comparison, the
    `yyyy-MM` month key charts group by, and the date-fns month helpers the
    filter presets use (`startOfMonth`, `endOfMonth`, `subMonths`). */
module Dates {

  /** A proleptic Gregorian calendar day. The time of day is not modelled. */
  datatype Date = Date(year: int, month: int, day: int)

  predicate IsLeapYear(y: int)
  {
    (y % 4 == 0 && y % 100 != 0) || y % 400 == 0
  }

  function DaysInMonth(y: int, m: int): (n: int)
    requires 1 <= m <= 12
    ensures 28 <= n <= 31
  {
    if m == 2 then (if IsLeapYear(y) then 29 else 28)
    else if m == 4 || m == 6 || m == 9 || m == 11 then 30
    else 31
  }

  predicate ValidDate(d: Date)
  {
    1 <= d.month <= 12 && 1 <= d.day <= DaysInMonth(d.year, d.month)
  }

  /** Chronological order on days: year, then month, then day. */
  predicate DateLe(a: Date, b: Date)
  {
    a.year < b.year
    || (a.year == b.year && (a.month < b.month || (a.month == b.month && a.day <= b.day)))
  }

  /** `DateLe` is a total order on days. */
  lemma DateLeTotalOrder(a: Date, b: Date, c: Date)
    ensures DateLe(a, a)
    ensures DateLe(a, b) && DateLe(b, a) ==> a == b
    ensures DateLe(a, b) && DateLe(b, c) ==> DateLe(a, c)
    ensures DateLe(a, b) || DateLe(b, a)
  {
  }

  /** Transitivity alone, for inductions where the four facts of
      `DateLeTotalOrder` would make the proof needlessly expensive. */
  lemma DateLeTrans(a: Date, b: Date, c: Date)
    requires DateLe(a, b) && DateLe(b, c)
    ensures DateLe(a, c)
  {
  }

  /** The calendar month of a date: the value behind `format(date, 'yyyy-MM')`
      for the years 1 to 9999 (see `FormatMonthKey`). */
  datatype MonthKey = MonthKey(year: int, month: int)

  function MonthOf(d: Date): MonthKey
  {
    MonthKey(d.year, d.month)
  }

  /** Chronological order on months. */
  predicate KeyLt(a: MonthKey, b: MonthKey)
  {
    a.year < b.year || (a.year == b.year && a.month < b.month)
  }

  /** Months counted from year 0: consecutive months differ by one. */
  function MonthIndex(k: MonthKey): int
  {
    12 * k.year + k.month - 1
  }

  /** For well-formed keys, month order is the order of month indices. */
  lemma KeyLtIsIndexOrder(a: MonthKey, b: MonthKey)
    requires 1 <= a.month <= 12 && 1 <= b.month <= 12
    ensures KeyLt(a, b) <==> MonthIndex(a) < MonthIndex(b)
  {
  }

  /** Later days never fall in earlier months. */
  lemma MonthOfMonotone(a: Date, b: Date)
    requires DateLe(a, b)
    ensures !KeyLt(MonthOf(b), MonthOf(a))
  {
  }

  // ---- date-fns month helpers ---------------------------------------------

  /** `startOfMonth(d)`. */
  function StartOfMonth(d: Date): Date
  {
    Date(d.year, d.month, 1)
  }

  /** `endOfMonth(d)` (its last day; the time 23:59:59.999 is not modelled). */
  function EndOfMonth(d: Date): Date
    requires 1 <= d.month <= 12
  {
    Date(d.year, d.month, DaysInMonth(d.year, d.month))
  }

  /** `subMonths(d, n)`: the same day `n` months earlier, clamped to the
      length of the target month. */
  function SubMonths(d: Date, n: nat): (r: Date)
    requires 1 <= d.month <= 12
    ensures 1 <= r.month <= 12
  {
    var index := MonthIndex(MonthOf(d)) - n;
    var y := index / 12;
    var m := index % 12 + 1;
    Date(y, m, if d.day <= DaysInMonth(y, m) then d.day else DaysInMonth(y, m))
  }

  /** A valid date lies between the first and the last day of its month,
      both of which are valid dates of the same month, and the days between
      those two are exactly the valid days of that month. */
  lemma MonthBoundsContain(d: Date)
    requires ValidDate(d)
    ensures ValidDate(StartOfMonth(d)) && ValidDate(EndOfMonth(d))
    ensures MonthOf(StartOfMonth(d)) == MonthOf(d) == MonthOf(EndOfMonth(d))
    ensures DateLe(StartOfMonth(d), d) && DateLe(d, EndOfMonth(d))
    ensures forall e :: DateLe(StartOfMonth(d), e) && DateLe(e, EndOfMonth(d))
                        <==> ValidDate(e) && MonthOf(e) == MonthOf(d)
  {
  }

  /** `subMonths(d, n)` lands exactly `n` months earlier and yields a valid
      date: the same day of the month when the target month has it, else
      the target month's last day. */
  lemma SubMonthsIndex(d: Date, n: nat)
    requires ValidDate(d)
    ensures MonthIndex(MonthOf(SubMonths(d, n))) == MonthIndex(MonthOf(d)) - n
    ensures ValidDate(SubMonths(d, n))
    ensures var r := SubMonths(d, n);
      if d.day <= DaysInMonth(r.year, r.month) then r.day == d.day else r.day == DaysInMonth(r.year, r.month)
  {
    var index := MonthIndex(MonthOf(d)) - n;
    assert index == 12 * (index / 12) + index % 12;
  }

  // ---- the `yyyy-MM` text form ----------------------------------------------

  function DigitChar(n: int): char
    requires 0 <= n <= 9
  {
    ('0' as int + n) as char
  }

  function Pow10(w: nat): (p: nat)
    ensures p >= 1
  {
    if w == 0 then 1 else 10 * Pow10(w - 1)
  }

  /** `n` written with exactly `w` decimal digits, zero-padded on the left. */
  function Digits(n: nat, w: nat): (s: string)
    ensures |s| == w
  {
    if w == 0 then [] else Digits(n / 10, w - 1) + [DigitChar(n % 10)]
  }

  /** The key as date-fns prints it with the pattern `yyyy-MM`, for the years
      1 to 9999. There `yyyy` is the year itself in exactly four digits;
      date-fns prints year 0 and earlier as the era year `1 - year`, and
      years from 10000 on with five or more digits. */
  function FormatMonthKey(k: MonthKey): (s: string)
    requires 1 <= k.year <= 9999 && 1 <= k.month <= 12
    ensures |s| == 7 && s[4] == '-'
  {
    Digits(k.year, 4) + "-" + Digits(k.month, 2)
  }

  /** Lexicographic comparison by character code, which agrees with
      JavaScript's UTF-16 code-unit order on the digits and hyphen compared here. */
  predicate StrLt(a: string, b: string)
    decreases |a|
  {
    if |a| == 0 then |b| > 0
    else if |b| == 0 then false
    else a[0] < b[0] || (a[0] == b[0] && StrLt(a[1..], b[1..]))
  }

  /** Comparing two concatenations whose first parts have equal length
      compares the first parts, then the second parts. */
  lemma {:induction false} StrLtConcat(x: string, u: string, y: string, v: string)
    requires |x| == |y|
    ensures StrLt(x + u, y + v) <==> StrLt(x, y) || (x == y && StrLt(u, v))
    decreases |x|
  {
    if |x| > 0 {
      assert (x + u)[1..] == x[1..] + u;
      assert (y + v)[1..] == y[1..] + v;
      StrLtConcat(x[1..], u, y[1..], v);
      if x[0] == y[0] && x[1..] == y[1..] {
        assert x == [x[0]] + x[1..] && y == [y[0]] + y[1..];
      }
    } else {
      assert x + u == u && y + v == v;
    }
  }

  /** Fixed-width zero-padded numerals compare like the numbers they denote. */
  lemma {:induction false} DigitsOrder(a: nat, b: nat, w: nat)
    requires a < Pow10(w) && b < Pow10(w)
    ensures StrLt(Digits(a, w), Digits(b, w)) <==> a < b
    ensures Digits(a, w) == Digits(b, w) <==> a == b
    decreases w
  {
    if w > 0 {
      assert a == 10 * (a / 10) + a % 10;
      assert b == 10 * (b / 10) + b % 10;
      assert a / 10 < Pow10(w - 1) && b / 10 < Pow10(w - 1);
      DigitsOrder(a / 10, b / 10, w - 1);
      StrLtConcat(Digits(a / 10, w - 1), [DigitChar(a % 10)], Digits(b / 10, w - 1), [DigitChar(b % 10)]);
      var x, y := Digits(a / 10, w - 1), Digits(b / 10, w - 1);
      if Digits(a, w) == Digits(b, w) {
        assert x == Digits(a, w)[..w - 1] == Digits(b, w)[..w - 1] == y;
        assert Digits(a, w)[w - 1] == DigitChar(a % 10);
        assert Digits(b, w)[w - 1] == DigitChar(b % 10);
      }
    }
  }

  /** The source sorts month buckets by their `yyyy-MM` text; for the years
      1 to 9999 that text order is exactly chronological month order, and two
      keys print the same text only when they are the same month. */
  lemma FormatMonthKeyOrder(a: MonthKey, b: MonthKey)
    requires 1 <= a.year <= 9999 && 1 <= a.month <= 12
    requires 1 <= b.year <= 9999 && 1 <= b.month <= 12
    ensures StrLt(FormatMonthKey(a), FormatMonthKey(b)) <==> KeyLt(a, b)
    ensures FormatMonthKey(a) == FormatMonthKey(b) <==> a == b
  {
    assert Pow10(4) == 10000 && Pow10(2) == 100;
    DigitsOrder(a.year, b.year, 4);
    DigitsOrder(a.month, b.month, 2);
    var ya, yb := Digits(a.year, 4), Digits(b.year, 4);
    var ma, mb := "-" + Digits(a.month, 2), "-" + Digits(b.month, 2);
    StrLtConcat(ya, ma, yb, mb);
    StrLtConcat("-", Digits(a.month, 2), "-", Digits(b.month, 2));
    assert FormatMonthKey(a) == ya + ma && FormatMonthKey(b) == yb + mb;
    if FormatMonthKey(a) == FormatMonthKey(b) {
      assert ya == FormatMonthKey(a)[..4] == FormatMonthKey(b)[..4] == yb;
      assert Digits(a.month, 2) == FormatMonthKey(a)[5..] == FormatMonthKey(b)[5..] == Digits(b.month, 2);
    }
    assert !StrLt("-", "-");
  }
}

=== FILE: domain.dfy ===
/** The ledger's records: one closed enumeration of categories shared by the
    form, the filter and the charts, and the transaction record itself. */
module Domain {
  import opened Dates

  datatype Option<T> = None | Some(value: T)

  datatype Category = Food | Transport | Salary | Bills | Entertainment | Other

  /** The record's `type` field: `'income'` or `'expense'`. */
  datatype Kind = Income | Expense

  datatype Frequency = Weekly | Monthly

  /** One ledger entry, with the same fields the form builds. The recurring
      fields are `null` (here `None`) unless `isRecurring` is set. */
  datatype Transaction = Transaction(
    id: int,
    description: string,
    amount: real,
    kind: Kind,
    category: Category,
    date: Date,
    isRecurring: bool,
    frequency: Option<Frequency>,
    startDate: Option<Date>,
    nextDate: Option<Date>)

  /** The recurring fields are present exactly when the record is recurring,
      and a fresh recurring record is next due on its start date. */
  predicate RecurrenceConsistent(t: Transaction)
  {
    if t.isRecurring then
      t.frequency.Some? && t.startDate.Some? && t.nextDate == t.startDate
    else
      t.frequency.None? && t.startDate.None? && t.nextDate.None?
  }

  function Ids(ledger: seq<Transaction>): set<int>
  {
    set t | t in ledger :: t.id
  }
}

=== FILE: filter_panel.dfy ===
/** The filter panel: a small state machine over the chosen date preset, the
    custom bounds, the category and the search text. Each handler updates the
    panel's state and emits the configuration the application filters with. */
module FilterPanel {
  import opened Dates
  import opened Domain
  import opened Seqs
  import opened App
  import opened Weeks

  /** The date presets. `Unrecognised` stands for any other range name, which
      the handlers treat like `'all'`. */
  datatype DateRange = AllTime | ThisWeek | ThisMonth | Last3Months | Custom | Unrecognised

  /** What the handlers read from `new Date()`: today's calendar day. */
  datatype Clock = Clock(now: Date)

  /** A clock showing a real calendar date. */
  predicate SaneClock(c: Clock)
  {
    ValidDate(c.now)
  }

  /** The panel's component state; a `None` custom bound is the empty input. */
  datatype PanelState = PanelState(
    dateRange: DateRange,
    customFrom: Option<Date>,
    customTo: Option<Date>,
    category: CategoryFilter,
    search: string)

  const InitialPanel := PanelState(AllTime, None, None, AnyCategory, "")

  /** A handler's outcome: the next state and the configuration passed to
      `onFilterChange`, if any. */
  datatype Reaction = Reaction(state: PanelState, emitted: Option<FilterConfig>)

  /** The bounds `handleDateRangeChange` computes for a range. */
  function RangeBounds(range: DateRange, customFrom: Option<Date>, customTo: Option<Date>, clock: Clock)
    : (Option<Date>, Option<Date>)
    requires 1 <= clock.now.month <= 12
  {
    match range
    case ThisWeek => (Some(StartOfWeek(clock.now)), Some(EndOfWeek(clock.now)))
    case ThisMonth => (Some(StartOfMonth(clock.now)), Some(EndOfMonth(clock.now)))
    case Last3Months => (Some(StartOfMonth(SubMonths(clock.now, 2))), Some(EndOfMonth(clock.now)))
    case Custom => (customFrom, customTo)
    case _ => (None, None)
  }

  /** `getDateFrom`: the lower bound the current state denotes. */
  function GetDateFrom(s: PanelState, clock: Clock): Option<Date>
    requires 1 <= clock.now.month <= 12
  {
    if s.dateRange == ThisWeek then Some(StartOfWeek(clock.now))
    else if s.dateRange == ThisMonth then Some(StartOfMonth(clock.now))
    else if s.dateRange == Last3Months then Some(StartOfMonth(SubMonths(clock.now, 2)))
    else if s.dateRange == Custom then s.customFrom
    else None
  }

  /** `getDateTo`: the upper bound the current state denotes. */
  function GetDateTo(s: PanelState, clock: Clock): Option<Date>
    requires 1 <= clock.now.month <= 12
  {
    if s.dateRange == ThisWeek then Some(EndOfWeek(clock.now))
    else if s.dateRange == ThisMonth then Some(EndOfMonth(clock.now))
    else if s.dateRange == Last3Months then Some(EndOfMonth(clock.now))
    else if s.dateRange == Custom then s.customTo
    else None
  }

  /** The configuration the panel's state denotes. */
  function ConfigOf(s: PanelState, clock: Clock): FilterConfig
    requires 1 <= clock.now.month <= 12
  {
    FilterConfig(GetDateFrom(s, clock), GetDateTo(s, clock), s.category, s.search)
  }

  /** `handleDateRangeChange(range)`: switches the preset and emits its bounds
      with the current category and search. */
  function HandleDateRangeChange(s: PanelState, range: DateRange, clock: Clock): (e: Reaction)
    requires 1 <= clock.now.month <= 12
    ensures e.state == s.(dateRange := range)
    ensures e.emitted.Some? && e.emitted.value.category == s.category && e.emitted.value.search == s.search
    ensures range == AllTime || range == Unrecognised ==>
              e.emitted.value.dateFrom.None? && e.emitted.value.dateTo.None?
    ensures range == Custom ==>
              e.emitted.value.dateFrom == s.customFrom && e.emitted.value.dateTo == s.customTo
  {
    var bounds := RangeBounds(range, s.customFrom, s.customTo, clock);
    Reaction(s.(dateRange := range), Some(FilterConfig(bounds.0, bounds.1, s.category, s.search)))
  }

  /** `handleCategoryChange(category)`: emits the new category with the
      current bounds and search. */
  function HandleCategoryChange(s: PanelState, category: CategoryFilter, clock: Clock): (e: Reaction)
    requires 1 <= clock.now.month <= 12
    ensures e.state == s.(category := category)
    ensures e.emitted.Some? && e.emitted.value.category == category && e.emitted.value.search == s.search
  {
    Reaction(s.(category := category),
             Some(FilterConfig(GetDateFrom(s, clock), GetDateTo(s, clock), category, s.search)))
  }

  /** `handleSearchChange(search)`: emits the new search with the current
      bounds and category. */
  function HandleSearchChange(s: PanelState, search: string, clock: Clock): (e: Reaction)
    requires 1 <= clock.now.month <= 12
    ensures e.state == s.(search := search)
    ensures e.emitted.Some? && e.emitted.value.search == search && e.emitted.value.category == s.category
  {
    Reaction(s.(search := search),
             Some(FilterConfig(GetDateFrom(s, clock), GetDateTo(s, clock), s.category, search)))
  }

  /** The Custom button only selects the preset; nothing is emitted. */
  function PressCustom(s: PanelState): (e: Reaction)
    ensures e.state == s.(dateRange := Custom) && e.emitted.None?
  {
    Reaction(s.(dateRange := Custom), None)
  }

  /** The getters and the range handler are written separately; for a fixed
      clock and every range they agree on the bounds. */
  lemma GettersAgreeWithRangeChange(s: PanelState, range: DateRange, clock: Clock)
    requires 1 <= clock.now.month <= 12
    ensures var e := HandleDateRangeChange(s, range, clock);
      GetDateFrom(e.state, clock) == e.emitted.value.dateFrom
      && GetDateTo(e.state, clock) == e.emitted.value.dateTo
  {
  }

  /** Each emitting handler emits exactly the configuration its new state
      denotes; in particular a category or search change keeps the bounds
      of the current preset. */
  lemma EmittedConfigMatchesState(s: PanelState, range: DateRange, category: CategoryFilter, search: string, clock: Clock)
    requires 1 <= clock.now.month <= 12
    ensures HandleDateRangeChange(s, range, clock).emitted == Some(ConfigOf(s.(dateRange := range), clock))
    ensures HandleCategoryChange(s, category, clock).emitted == Some(ConfigOf(s.(category := category), clock))
    ensures HandleSearchChange(s, search, clock).emitted == Some(ConfigOf(s.(search := search), clock))
  {
  }

  /** The panel starts in agreement with the application's initial filters. */
  lemma InitialPanelMatchesApp(clock: Clock)
    requires 1 <= clock.now.month <= 12
    ensures ConfigOf(InitialPanel, clock) == InitialFilters
  {
  }

  /** On a sane clock, today passes the date test of every preset that
      depends on the clock. */
  lemma PresetsContainToday(range: DateRange, s: PanelState, clock: Clock)
    requires SaneClock(clock)
    requires range == ThisWeek || range == ThisMonth || range == Last3Months
    ensures MatchesDate(HandleDateRangeChange(s, range, clock).emitted.value, clock.now)
  {
    if range == ThisWeek {
      WeekBounds(clock.now);
    } else {
      MonthBoundsContain(clock.now);
      var earlier := SubMonths(clock.now, 2);
      SubMonthsIndex(clock.now, 2);
      KeyLtIsIndexOrder(MonthOf(earlier), MonthOf(clock.now));
    }
  }

  /** `thisWeek` emits the Sunday on or before today and the Saturday six
      days after it, both real calendar dates. */
  lemma ThisWeekRunsSundayToSaturday(s: PanelState, clock: Clock)
    requires SaneClock(clock)
    ensures var f := HandleDateRangeChange(s, ThisWeek, clock).emitted.value;
      f.dateFrom.Some? && f.dateTo.Some?
      && ValidDate(f.dateFrom.value) && ValidDate(f.dateTo.value)
      && Weekday(f.dateFrom.value) == 0 && Weekday(f.dateTo.value) == 6
      && DayCount(f.dateTo.value) == DayCount(f.dateFrom.value) + 6
  {
    WeekBounds(clock.now);
  }

  /** `thisMonth` admits exactly the valid days of the current month. */
  lemma ThisMonthSelectsCurrentMonth(s: PanelState, clock: Clock, d: Date)
    requires SaneClock(clock)
    ensures MatchesDate(HandleDateRangeChange(s, ThisMonth, clock).emitted.value, d)
            <==> ValidDate(d) && MonthOf(d) == MonthOf(clock.now)
  {
    MonthBoundsContain(clock.now);
  }

  /** `last3Months` admits exactly the valid days of the current month and
      the two months before it. */
  lemma Last3MonthsSelectsThreeMonths(s: PanelState, clock: Clock, d: Date)
    requires SaneClock(clock) && ValidDate(d)
    ensures MatchesDate(HandleDateRangeChange(s, Last3Months, clock).emitted.value, d)
            <==> MonthIndex(MonthOf(clock.now)) - 2 <= MonthIndex(MonthOf(d)) <= MonthIndex(MonthOf(clock.now))
  {
    var earlier := SubMonths(clock.now, 2);
    SubMonthsIndex(clock.now, 2);
    MonthBoundsContain(clock.now);
    KeyLtIsIndexOrder(MonthOf(d), MonthOf(earlier));
    KeyLtIsIndexOrder(MonthOf(clock.now), MonthOf(d));
  }

  /** `thisMonth` and `last3Months` end on the same day, and `last3Months`
      starts no later, so its view contains the `thisMonth` view in order. */
  lemma Last3MonthsCoversThisMonth(ledger: seq<Transaction>, s: PanelState, clock: Clock)
    requires ValidDate(clock.now)
    ensures var month := HandleDateRangeChange(s, ThisMonth, clock).emitted.value;
      var quarter := HandleDateRangeChange(s, Last3Months, clock).emitted.value;
      month.dateTo == quarter.dateTo
      && IsSubseq(FilteredTransactions(ledger, month), FilteredTransactions(ledger, quarter))
  {
    var month := HandleDateRangeChange(s, ThisMonth, clock).emitted.value;
    var quarter := HandleDateRangeChange(s, Last3Months, clock).emitted.value;
    var earlier := SubMonths(clock.now, 2);
    SubMonthsIndex(clock.now, 2);
    KeyLtIsIndexOrder(MonthOf(earlier), MonthOf(clock.now));
    DateLeTotalOrder(month.dateTo.value, month.dateTo.value, month.dateTo.value);
    assert Relaxes(quarter, month);
    FilterMonotone(ledger, month, quarter);
  }

  // ---- sequences of user actions ----------------------------------------------

  /** One user action on the panel. */
  datatype Action =
    | ChooseRange(range: DateRange)
    | ChooseCategory(category: CategoryFilter)
    | TypeSearch(search: string)
    | ClickCustom

  /** The handler an action triggers. */
  function React(s: PanelState, a: Action, clock: Clock): Reaction
    requires 1 <= clock.now.month <= 12
  {
    match a
    case ChooseRange(r) => HandleDateRangeChange(s, r, clock)
    case ChooseCategory(c) => HandleCategoryChange(s, c, clock)
    case TypeSearch(q) => HandleSearchChange(s, q, clock)
    case ClickCustom => PressCustom(s)
  }

  /** Runs the actions in order and returns the final panel state together
      with the configuration the application holds afterwards (the last one
      emitted, or `config` when nothing was emitted). */
  function Run(s: PanelState, config: FilterConfig, actions: seq<Action>, clock: Clock): (PanelState, FilterConfig)
    requires 1 <= clock.now.month <= 12
    decreases |actions|
  {
    if |actions| == 0 then (s, config)
    else
      var e := React(s, actions[0], clock);
      Run(e.state, if e.emitted.Some? then e.emitted.value else config, actions[1..], clock)
  }

  /** Without clicks on the Custom button, the application's configuration
      always equals the one the panel's state denotes. */
  lemma {:induction false} RunStaysInSync(s: PanelState, actions: seq<Action>, clock: Clock)
    requires 1 <= clock.now.month <= 12
    requires forall i :: 0 <= i < |actions| ==> actions[i] != ClickCustom
    ensures Run(s, ConfigOf(s, clock), actions, clock).1 == ConfigOf(Run(s, ConfigOf(s, clock), actions, clock).0, clock)
    decreases |actions|
  {
    if |actions| > 0 {
      var e := React(s, actions[0], clock);
      assert e.emitted == Some(ConfigOf(e.state, clock)) by {
        match actions[0]
        case ChooseRange(r) => EmittedConfigMatchesState(s, r, s.category, s.search, clock);
        case ChooseCategory(c) => EmittedConfigMatchesState(s, s.dateRange, c, s.search, clock);
        case TypeSearch(q) => EmittedConfigMatchesState(s, s.dateRange, s.category, q, clock);
      }
      RunStaysInSync(e.state, actions[1..], clock);
    }
  }

  /** The Custom button breaks that agreement: from `'all'` with a stored
      custom start, clicking Custom leaves the application unfiltered while the
      panel's state denotes the custom range. */
  lemma ClickCustomLeavesConfigStale(d: Date, clock: Clock)
    requires 1 <= clock.now.month <= 12
    ensures var s := InitialPanel.(customFrom := Some(d));
      var after := Run(s, ConfigOf(s, clock), [ClickCustom], clock);
      after.1 == InitialFilters && ConfigOf(after.0, clock).dateFrom == Some(d)
  {
  }

  /** Switching to another preset does not discard the custom bounds: a later
      click on Custom followed by a search brings them back. */
  lemma CustomBoundsSurvivePresets(s: PanelState, range: DateRange, q: string, clock: Clock)
    requires 1 <= clock.now.month <= 12
    ensures var after := Run(s, ConfigOf(s, clock), [ChooseRange(range), ClickCustom, TypeSearch(q)], clock);
      after.1.dateFrom == s.customFrom && after.1.dateTo == s.customTo
  {
    var actions := [ChooseRange(range), ClickCustom, TypeSearch(q)];
    var e1 := HandleDateRangeChange(s, range, clock);
    var e2 := PressCustom(e1.state);
    var e3 := HandleSearchChange(e2.state, q, clock);
    assert actions[1..] == [ClickCustom, TypeSearch(q)] && actions[1..][1..] == [TypeSearch(q)];
    assert Run(e2.state, e1.emitted.value, [TypeSearch(q)], clock) == (e3.state, e3.emitted.value);
  }
}

=== FILE: instants.dfy ===
/** The date-range test on the instants JavaScript `Date` values hold
    (milliseconds, UTC), as opposed to the calendar days the rest of the model
    compares. Only the midnights the test compares are modelled: a record's
    date string and the preset bounds denote local times, while a custom
    bound typed into a date input is parsed as midnight UTC. */
module Instants {
  import opened Dates
  import opened Domain
  import App
  import opened Weeks

  const DayMs: int := 86_400_000

  /** The exact calendar day count of `d`, so that a day number times
      `DayMs` is a real millisecond offset. A month outside 1..12 never
      reaches the lemmas below, which take valid dates; it maps to 0. */
  function DayNumber(d: Date): int
  {
    if 1 <= d.month <= 12 then DayCount(d) else 0
  }

  /** Midnight UTC of `d`: what `new Date("yyyy-MM-dd")` yields, since a
      date-only ISO string is read as UTC. */
  function UtcMidnight(d: Date): int
  {
    DayNumber(d) * DayMs
  }

  /** Local midnight of `d` in a zone `offset` east of UTC: what `new Date`
      yields for the locale date string a record carries in a month-first
      locale such as en-US, and what `startOfMonth` and `startOfWeek` return. */
  function LocalMidnight(d: Date, offset: int): int
  {
    DayNumber(d) * DayMs - offset
  }

  /** The last local millisecond of `d`, as `endOfMonth` and `endOfWeek` return. */
  function LocalEndOfDay(d: Date, offset: int): int
  {
    LocalMidnight(d, offset) + DayMs - 1
  }

  /** The date test of `getFilteredTransactions`, on instants: a missing
      bound imposes nothing, both comparisons are inclusive. */
  predicate InRange(from: Option<int>, to: Option<int>, at: int)
  {
    (from.None? || from.value <= at) && (to.None? || at <= to.value)
  }

  /** An optional date bound turned into an instant by `parse`. */
  function Bound(b: Option<Date>, parse: Date -> int): Option<int>
  {
    if b.None? then None else Some(parse(b.value))
  }

  /** The custom range as written: the inputs' `yyyy-MM-dd` values go through
      `new Date(...)` and become midnight UTC, while the record's date is
      local midnight. */
  predicate CustomMatchesAsWritten(from: Option<Date>, to: Option<Date>, d: Date, offset: int)
  {
    InRange(Bound(from, UtcMidnight), Bound(to, UtcMidnight), LocalMidnight(d, offset))
  }

  /** East of UTC, a record dated on the custom start day fails the test:
      its local midnight comes before midnight UTC of the same day. */
  lemma CustomFromDropsItsDayEastOfUtc(d: Date, to: Option<Date>, offset: int)
    requires 0 < offset
    ensures !CustomMatchesAsWritten(Some(d), to, d, offset)
  {
  }

  /** West of UTC, a record dated on the custom end day fails the test:
      its local midnight comes after midnight UTC of the same day. */
  lemma CustomToDropsItsDayWestOfUtc(d: Date, from: Option<Date>, offset: int)
    requires offset < 0
    ensures !CustomMatchesAsWritten(from, Some(d), d, offset)
  {
  }

  /** A concrete case in UTC+5:30: with the range 1 February to 1 February,
      a record dated 1 February is filtered out. */
  lemma CustomSingleDayEmptyInIndia()
    ensures !CustomMatchesAsWritten(Some(Date(2024, 2, 1)), Some(Date(2024, 2, 1)), Date(2024, 2, 1), 19_800_000)
  {
    CustomFromDropsItsDayEastOfUtc(Date(2024, 2, 1), Some(Date(2024, 2, 1)), 19_800_000);
  }

  /** The custom range as evidently intended: the typed dates are local
      days, like the record's date, so both bounds are local midnights. */
  predicate CustomMatchesCorrected(from: Option<Date>, to: Option<Date>, d: Date, offset: int)
  {
    InRange(Bound(from, (b: Date) => LocalMidnight(b, offset)),
            Bound(to, (b: Date) => LocalMidnight(b, offset)),
            LocalMidnight(d, offset))
  }

  /** In every zone the corrected custom range is the inclusive calendar-day
      test the rest of the model uses. */
  lemma CorrectedCustomMatchesCalendar(from: Option<Date>, to: Option<Date>, d: Date, offset: int)
    requires ValidDate(d)
    requires from.Some? ==> ValidDate(from.value)
    requires to.Some? ==> ValidDate(to.value)
    ensures CustomMatchesCorrected(from, to, d, offset)
            <==> App.MatchesDate(App.FilterConfig(from, to, App.AnyCategory, ""), d)
  {
    if from.Some? {
      DayCountOrder(from.value, d);
    }
    if to.Some? {
      DayCountOrder(d, to.value);
    }
  }

  /** The preset ranges are right as written: from local midnight of the
      first day to the last local millisecond of the last day, a record's
      local midnight is inside exactly when its day is, in every zone. */
  lemma PresetMatchesCalendar(first: Date, last: Date, d: Date, offset: int)
    requires ValidDate(first) && ValidDate(last) && ValidDate(d)
    ensures InRange(Some(LocalMidnight(first, offset)), Some(LocalEndOfDay(last, offset)), LocalMidnight(d, offset))
            <==> DateLe(first, d) && DateLe(d, last)
  {
    DayCountOrder(first, d);
    DayCountOrder(d, last);
  }
}

=== FILE: scenarios.dfy ===
/** A worked example on three records: a January salary, a January food
    expense and a February food expense. */
module Scenarios {
  import opened Dates
  import opened Domain
  import opened Seqs
  import opened App
  import opened Charts

  function Salary1(): Transaction
  {
    Transaction(1, "January salary", 1000.0, Income, Salary, Date(2024, 1, 5), false, None, None, None)
  }

  function Lunch2(): Transaction
  {
    Transaction(2, "Lunch", 50.0, Expense, Food, Date(2024, 1, 10), false, None, None, None)
  }

  function Groceries3(): Transaction
  {
    Transaction(3, "Groceries", 30.0, Expense, Food, Date(2024, 2, 1), false, None, None, None)
  }

  function Sample(): seq<Transaction>
  {
    [Salary1(), Lunch2(), Groceries3()]
  }

  /** The expense filter keeps the two food records of the sample. */
  lemma SampleExpenses()
    ensures Keep(Sample(), IsExpense) == [Lunch2(), Groceries3()]
  {
    var ts := Sample();
    assert ts[1..][1..][1..] == [];
  }

  /** The pie of the unfiltered sample: a single Food slice of 80. */
  lemma SamplePie()
    ensures PieData(Sample()) == [Slice(Food, 80.0)]
  {
    SampleExpenses();
    var es := [Lunch2(), Groceries3()];
    assert es[1..] == [Groceries3()] && es[1..][1..] == [];
    var one := AddToSlice([], Food, 50.0);
    assert one == [Slice(Food, 50.0)];
    assert TallyExpenses([], es) == TallyExpenses(one, es[1..]);
    var two := AddToSlice(one, Food, 30.0);
    assert two == [Slice(Food, 80.0)] + one[1..];
    assert TallyExpenses(one, es[1..]) == TallyExpenses(two, []);
  }

  /** The January records of the sample fill one bucket. */
  lemma SampleJanuary()
    ensures MonthlyData(Sample()) == TallyMonths([MonthBucket(MonthKey(2024, 1), 1000.0, 50.0)], [Groceries3()])
  {
    var ts := Sample();
    assert ts[1..] == [Lunch2(), Groceries3()] && ts[2..] == [Groceries3()];
    var jan := MonthBucket(MonthKey(2024, 1), 1000.0, 0.0);
    assert MonthlyData(ts) == TallyMonths([jan], ts[1..]);
  }

  /** The February record opens a second bucket after January's. */
  lemma SampleFebruary()
    ensures TallyMonths([MonthBucket(MonthKey(2024, 1), 1000.0, 50.0)], [Groceries3()])
            == [MonthBucket(MonthKey(2024, 1), 1000.0, 50.0), MonthBucket(MonthKey(2024, 2), 0.0, 30.0)]
  {
    var jan2 := MonthBucket(MonthKey(2024, 1), 1000.0, 50.0);
    assert [jan2][1..] == [] && [Groceries3()][1..] == [];
  }

  /** The monthly reduction of the sample, before sorting: January
      (1000 income, 50 expense), then February (no income, 30 expense). */
  lemma SampleMonthly()
    ensures MonthlyData(Sample())
            == [MonthBucket(MonthKey(2024, 1), 1000.0, 50.0), MonthBucket(MonthKey(2024, 2), 0.0, 30.0)]
  {
    SampleJanuary();
    SampleFebruary();
  }

  /** The line of the unfiltered sample: the monthly buckets, already in
      month order. */
  lemma SampleLine()
    ensures LineData(Sample())
            == [MonthBucket(MonthKey(2024, 1), 1000.0, 50.0), MonthBucket(MonthKey(2024, 2), 0.0, 30.0)]
  {
    SampleMonthly();
    var jan2 := MonthBucket(MonthKey(2024, 1), 1000.0, 50.0);
    var feb := MonthBucket(MonthKey(2024, 2), 0.0, 30.0);
    assert SortByMonth([jan2, feb]) == Insert(jan2, [feb]);
  }

  /** Filtering the sample by category Food keeps the two food records in
      order. */
  lemma SampleFoodView()
    ensures FilteredTransactions(Sample(), FilterConfig(None, None, Only(Food), "")) == [Lunch2(), Groceries3()]
  {
    var ts := Sample();
    assert ts[1..][1..][1..] == [];
  }

  /** The export of the Food view has the two food rows, in order. */
  lemma SampleFoodExport()
    ensures HandleExport(Sample(), FilterConfig(None, None, Only(Food), "")) == [ToRow(Lunch2()), ToRow(Groceries3())]
  {
    SampleFoodView();
    var food := [Lunch2(), Groceries3()];
    assert food[1..][1..] == [];
  }

  /** A single-day range on 1 February keeps only the February record: both
      bounds are inclusive. */
  lemma SampleSingleDay()
    ensures FilteredTransactions(Sample(), FilterConfig(Some(Date(2024, 2, 1)), Some(Date(2024, 2, 1)), AnyCategory, ""))
            == [Groceries3()]
  {
    var ts := Sample();
    assert ts[1..][1..][1..] == [];
  }
}

=== FILE: seqs.dfy ===
/** Sequence helpers shared by the ledger operations: the behaviour of
    JavaScript's `Array.prototype.filter`, and what "order-preserving
    subsequence" means. */
module Seqs {

  /** `s.filter(p)`: the elements of `s` that satisfy `p`, in their original order. */
  function Keep<T(!new)>(s: seq<T>, p: T -> bool): (r: seq<T>)
    ensures |r| <= |s|
    ensures forall x :: x in r <==> x in s && p(x)
    decreases |s|
  {
    if |s| == 0 then []
    else (if p(s[0]) then [s[0]] else []) + Keep(s[1..], p)
  }

  /** `a` can be obtained from `b` by deleting elements, without reordering. */
  ghost predicate IsSubseq<T(!new)>(a: seq<T>, b: seq<T>)
    decreases |b|
  {
    if |b| == 0 then |a| == 0
    else |a| == 0
         || (a[0] == b[0] && IsSubseq(a[1..], b[1..]))
         || IsSubseq(a, b[1..])
  }

  /** Positions are listed in strictly increasing order. */
  ghost predicate Increasing(idx: seq<int>)
  {
    forall j, k :: 0 <= j < k < |idx| ==> idx[j] < idx[k]
  }

  /** The filtered sequence is an order-preserving subsequence of the input. */
  lemma {:induction false} KeepIsSubseq<T(!new)>(s: seq<T>, p: T -> bool)
    ensures IsSubseq(Keep(s, p), s)
    decreases |s|
  {
    if |s| > 0 {
      KeepIsSubseq(s[1..], p);
      var rest := Keep(s[1..], p);
      if p(s[0]) {
        assert Keep(s, p) == [s[0]] + rest;
        assert (Keep(s, p))[1..] == rest;
      } else {
        assert Keep(s, p) == rest;
      }
    }
  }

  /** `r` lists, in order, the elements of `s` at the positions `idx`, and these
      are exactly the positions whose element satisfies `p`. */
  ghost predicate SelectsPositions<T(!new)>(s: seq<T>, p: T -> bool, r: seq<T>, idx: seq<int>)
  {
    && |idx| == |r|
    && Increasing(idx)
    && (forall k :: 0 <= k < |idx| ==> 0 <= idx[k] < |s| && r[k] == s[idx[k]])
    && (forall i :: 0 <= i < |s| ==> (i in idx <==> p(s[i])))
  }

  /** The filtered sequence consists of exactly the elements at the positions
      whose element satisfies `p`, listed in increasing order: element `k` of the
      result is the element at position `idx[k]` of the input. */
  lemma {:induction false} KeepPositions<T(!new)>(s: seq<T>, p: T -> bool) returns (idx: seq<int>)
    ensures SelectsPositions(s, p, Keep(s, p), idx)
    decreases |s|
  {
    if |s| == 0 {
      idx := [];
    } else {
      var tail := KeepPositions(s[1..], p);
      if p(s[0]) {
        idx := SelectHead(s, p, Keep(s[1..], p), tail);
        assert Keep(s, p) == [s[0]] + Keep(s[1..], p);
      } else {
        idx := SkipHead(s, p, Keep(s[1..], p), tail);
        assert Keep(s, p) == Keep(s[1..], p);
      }
    }
  }

  lemma SkipHead<T(!new)>(s: seq<T>, p: T -> bool, rest: seq<T>, tail: seq<int>) returns (idx: seq<int>)
    requires |s| > 0 && !p(s[0])
    requires SelectsPositions(s[1..], p, rest, tail)
    ensures SelectsPositions(s, p, rest, idx)
  {
    idx := Shift(tail);
    forall k | 0 <= k < |idx|
      ensures 0 <= idx[k] < |s| && rest[k] == s[idx[k]]
    {
      var j := tail[k];
      assert s[1..][j] == s[j + 1];
    }
    forall i | 0 <= i < |s|
      ensures i in idx <==> p(s[i])
    {
      if i > 0 {
        assert s[i] == s[1..][i - 1];
      }
    }
  }

  lemma SelectHead<T(!new)>(s: seq<T>, p: T -> bool, rest: seq<T>, tail: seq<int>) returns (idx: seq<int>)
    requires |s| > 0 && p(s[0])
    requires SelectsPositions(s[1..], p, rest, tail)
    ensures SelectsPositions(s, p, [s[0]] + rest, idx)
  {
    var shifted := Shift(tail);
    idx := [0] + shifted;
    var r := [s[0]] + rest;
    forall j, k | 0 <= j < k < |idx|
      ensures idx[j] < idx[k]
    {
      assert idx[k] == shifted[k - 1] >= 1;
      if j > 0 {
        assert idx[j] == shifted[j - 1];
      }
    }
    forall k | 0 <= k < |idx|
      ensures 0 <= idx[k] < |s| && r[k] == s[idx[k]]
    {
      if k > 0 {
        var j := tail[k - 1];
        assert s[1..][j] == s[j + 1];
        assert r[k] == rest[k - 1];
      }
    }
    forall i | 0 <= i < |s|
      ensures i in idx <==> p(s[i])
    {
      if i > 0 {
        assert s[i] == s[1..][i - 1];
        assert i in idx <==> i in shifted;
      }
    }
  }

  /** Every position moved one place to the right. */
  function Shift(idx: seq<int>): (r: seq<int>)
    ensures |r| == |idx|
    ensures forall k :: 0 <= k < |r| ==> r[k] == idx[k] + 1
    ensures Increasing(idx) ==> Increasing(r)
    ensures forall i :: i in r <==> i - 1 in idx
    ensures (forall k :: 0 <= k < |idx| ==> 0 <= idx[k]) ==> 0 !in r
  {
    seq(|idx|, k requires 0 <= k < |idx| => idx[k] + 1)
  }

  /** A filter that every element passes returns its input unchanged. */
  lemma {:induction false} KeepAll<T(!new)>(s: seq<T>, p: T -> bool)
    requires forall x :: x in s ==> p(x)
    ensures Keep(s, p) == s
    decreases |s|
  {
    if |s| > 0 {
      KeepAll(s[1..], p);
      assert [s[0]] + s[1..] == s;
    }
  }

  /** A filter that no element passes returns the empty sequence. */
  lemma {:induction false} KeepNone<T(!new)>(s: seq<T>, p: T -> bool)
    requires forall x :: x in s ==> !p(x)
    ensures Keep(s, p) == []
    decreases |s|
  {
    if |s| > 0 {
      KeepNone(s[1..], p);
    }
  }

  /** Filtering twice with the same predicate is the same as filtering once. */
  lemma KeepIdempotent<T(!new)>(s: seq<T>, p: T -> bool)
    ensures Keep(Keep(s, p), p) == Keep(s, p)
  {
    KeepAll(Keep(s, p), p);
  }

  /** Filtering with a weaker predicate keeps everything a stronger one keeps,
      in the same relative order. */
  lemma {:induction false} KeepMonotone<T(!new)>(s: seq<T>, p: T -> bool, q: T -> bool)
    requires forall x :: p(x) ==> q(x)
    ensures IsSubseq(Keep(s, p), Keep(s, q))
    decreases |s|
  {
    if |s| > 0 {
      KeepMonotone(s[1..], p, q);
      var a, b := Keep(s[1..], p), Keep(s[1..], q);
      if p(s[0]) {
        assert Keep(s, p) == [s[0]] + a && (Keep(s, p))[1..] == a;
        assert Keep(s, q) == [s[0]] + b && (Keep(s, q))[1..] == b;
      } else if q(s[0]) {
        assert Keep(s, p) == a;
        assert Keep(s, q) == [s[0]] + b && (Keep(s, q))[1..] == b;
      } else {
        assert Keep(s, p) == a && Keep(s, q) == b;
      }
    }
  }

  /** Filtering distributes over a prepended element. */
  lemma KeepCons<T(!new)>(x: T, s: seq<T>, p: T -> bool)
    ensures Keep([x] + s, p) == (if p(x) then [x] + Keep(s, p) else Keep(s, p))
  {
    assert ([x] + s)[1..] == s;
  }
}

=== FILE: text.dfy ===
/** The JavaScript string operations the ledger relies on: `trim`,
    `toLowerCase` and `includes`. */
module Text {

  /** The characters `String.prototype.trim` removes: ECMAScript WhiteSpace
      (tab, vertical tab, form feed, space, no-break space, byte-order mark and
      the Unicode space separators) and LineTerminator (LF, CR, U+2028, U+2029). */
  predicate IsTrimmable(c: char)
  {
    || c == '\t' || c == '\n' || c == '\U{000B}' || c == '\U{000C}' || c == '\r'
    || c == ' ' || c == '\U{00A0}' || c == '\U{1680}'
    || ('\U{2000}' <= c <= '\U{200A}')
    || c == '\U{2028}' || c == '\U{2029}' || c == '\U{202F}' || c == '\U{205F}'
    || c == '\U{3000}' || c == '\U{FEFF}'
  }

  /** Leading trimmable characters removed: the result is a suffix of `s`, what
      was dropped is all trimmable, and the result does not start with one. */
  function TrimStart(s: string): (r: string)
    ensures |r| <= |s| && r == s[|s| - |r|..]
    ensures forall k :: 0 <= k < |s| - |r| ==> IsTrimmable(s[k])
    ensures |r| > 0 ==> !IsTrimmable(r[0])
    decreases |s|
  {
    if |s| > 0 && IsTrimmable(s[0]) then TrimStart(s[1..]) else s
  }

  /** Trailing trimmable characters removed: the result is a prefix of `s`, what
      was dropped is all trimmable, and the result does not end with one. */
  function TrimEnd(s: string): (r: string)
    ensures |r| <= |s| && r == s[..|r|]
    ensures forall k :: |r| <= k < |s| ==> IsTrimmable(s[k])
    ensures |r| > 0 ==> !IsTrimmable(r[|r| - 1])
    decreases |s|
  {
    if |s| > 0 && IsTrimmable(s[|s| - 1]) then TrimEnd(s[..|s| - 1]) else s
  }

  /** `s.trim()`. */
  function Trim(s: string): string
  {
    TrimEnd(TrimStart(s))
  }

  /** The trimmed string is a contiguous slice of the input with only trimmable
      characters around it, and it neither starts nor ends with one. */
  lemma TrimIsCore(s: string) returns (lo: int, hi: int)
    ensures 0 <= lo <= hi <= |s| && Trim(s) == s[lo..hi]
    ensures forall k :: 0 <= k < lo ==> IsTrimmable(s[k])
    ensures forall k :: hi <= k < |s| ==> IsTrimmable(s[k])
    ensures |Trim(s)| > 0 ==> !IsTrimmable(Trim(s)[0]) && !IsTrimmable(Trim(s)[|Trim(s)| - 1])
  {
    var t := TrimStart(s);
    lo := |s| - |t|;
    var r := TrimEnd(t);
    hi := lo + |r|;
    assert t == s[lo..];
    assert r == t[..|r|];
    assert r == s[lo..hi];
    forall k | hi <= k < |s|
      ensures IsTrimmable(s[k])
    {
      assert s[k] == t[k - lo];
    }
    if |r| > 0 {
      assert r[0] == t[0];
    }
  }

  /** The trimmed string is empty exactly when every character is trimmable. */
  lemma TrimEmptyIff(s: string)
    ensures |Trim(s)| == 0 <==> forall k :: 0 <= k < |s| ==> IsTrimmable(s[k])
  {
    var lo, hi := TrimIsCore(s);
    if |Trim(s)| > 0 {
      assert s[lo] == Trim(s)[0];
    }
  }

  /** Trimming an already trimmed string changes nothing. */
  lemma TrimIdempotent(s: string)
    ensures Trim(Trim(s)) == Trim(s)
  {
    var r := Trim(s);
    var _, _ := TrimIsCore(s);
    assert TrimStart(r) == r;
    assert TrimEnd(r) == r;
  }

  /** `toLowerCase` on one character: ASCII capitals map to their lower-case
      letter, every other character is left alone. */
  function LowerChar(c: char): char
  {
    if 'A' <= c <= 'Z' then (c as int - 'A' as int + 'a' as int) as char else c
  }

  /** `s.toLowerCase()`. */
  function Lower(s: string): (r: string)
    ensures |r| == |s|
    ensures forall k :: 0 <= k < |s| ==> r[k] == LowerChar(s[k])
  {
    seq(|s|, k requires 0 <= k < |s| => LowerChar(s[k]))
  }

  /** Lower-casing twice is lower-casing once. */
  lemma LowerIdempotent(s: string)
    ensures Lower(Lower(s)) == Lower(s)
  {
  }

  /** Lower-casing commutes with taking a slice. */
  lemma LowerSlice(s: string, i: int, j: int)
    requires 0 <= i <= j <= |s|
    ensures Lower(s[i..j]) == Lower(s)[i..j]
  {
  }

  predicate StartsWith(s: string, prefix: string)
  {
    |prefix| <= |s| && s[..|prefix|] == prefix
  }

  /** `hay.includes(needle)`, scanning start positions from left to right. */
  predicate Includes(hay: string, needle: string)
    decreases |hay|
  {
    StartsWith(hay, needle) || (|hay| > 0 && Includes(hay[1..], needle))
  }

  /** `needle` appears in `hay` starting at position `i`. */
  ghost predicate OccursAt(hay: string, needle: string, i: int)
  {
    0 <= i && i + |needle| <= |hay| && hay[i..i + |needle|] == needle
  }

  /** The scanning definition agrees with the positional one: `includes`
      holds exactly when the needle occurs at some position. */
  lemma {:induction false} IncludesIff(hay: string, needle: string)
    ensures Includes(hay, needle) <==> exists i :: OccursAt(hay, needle, i)
    decreases |hay|
  {
    if StartsWith(hay, needle) {
      assert OccursAt(hay, needle, 0);
    } else if |hay| > 0 {
      IncludesIff(hay[1..], needle);
      if Includes(hay[1..], needle) {
        var i :| OccursAt(hay[1..], needle, i);
        assert hay[1..][i..i + |needle|] == hay[i + 1..i + 1 + |needle|];
        assert OccursAt(hay, needle, i + 1);
      }
      if i :| OccursAt(hay, needle, i) {
        assert i != 0;
        assert hay[1..][i - 1..i - 1 + |needle|] == hay[i..i + |needle|];
        assert OccursAt(hay[1..], needle, i - 1);
      }
    }
  }

  /** The empty needle is included in every string. */
  lemma IncludesEmpty(hay: string)
    ensures Includes(hay, "")
  {
    assert StartsWith(hay, "");
  }
}

=== FILE: transaction_form.dfy ===
/** The add-transaction form: the submit handler's validation, the record it
    builds, and the reset of the form state afterwards. */
module TransactionForm {
  import opened Dates
  import opened Domain
  import opened Text
  import App

  /** The form's component state. `amount` is the value of the number input:
      `None` for the empty field, otherwise the number `parseFloat` reads from it. */
  datatype FormState = FormState(
    description: string,
    amount: Option<real>,
    kind: Kind,
    category: Category,
    isRecurring: bool,
    frequency: Frequency,
    startDate: Date)

  /** The initial state, which is also the state after a successful submit:
      empty fields, income, `Other`, not recurring, monthly, starting today. */
  function DefaultForm(today: Date): FormState
  {
    FormState("", None, Income, Other, false, Monthly, today)
  }

  /** What one submit produces: the record handed to `onAddTransaction`, if
      any, and the form state afterwards. */
  datatype Submission = Submission(emitted: Option<Transaction>, form: FormState)

  /** The guard of `handleSubmit`: a blank description, an empty amount or an
      amount that is not positive. */
  predicate Invalid(f: FormState)
  {
    |Trim(f.description)| == 0 || f.amount.None? || f.amount.value <= 0.0
  }

  /** `handleSubmit`. The clock reads are parameters: `id` is `Date.now()`,
      `today` the local calendar date stamped on the record, and `isoToday` the
      UTC date the start-date field is reset to. */
  function HandleSubmit(f: FormState, id: int, today: Date, isoToday: Date): (r: Submission)
    ensures r.emitted.None? <==> (|Trim(f.description)| == 0 || f.amount.None? || f.amount.value <= 0.0)
    ensures r.emitted.None? ==> r.form == f
    ensures r.emitted.Some? ==>
              && r.emitted.value.description == Trim(f.description)
              && r.emitted.value.amount > 0.0
              && r.emitted.value.amount == f.amount.value
              && r.emitted.value.kind == f.kind && r.emitted.value.category == f.category
              && r.emitted.value.id == id && r.emitted.value.date == today
    ensures r.emitted.Some? && !f.isRecurring ==>
              && !r.emitted.value.isRecurring && r.emitted.value.frequency.None?
              && r.emitted.value.startDate.None? && r.emitted.value.nextDate.None?
    ensures r.emitted.Some? && f.isRecurring ==>
              && r.emitted.value.isRecurring && r.emitted.value.frequency == Some(f.frequency)
              && r.emitted.value.startDate == Some(f.startDate)
              && r.emitted.value.nextDate == r.emitted.value.startDate
    ensures r.emitted.Some? ==> r.form == DefaultForm(isoToday)
  {
    if Invalid(f) then Submission(None, f)
    else
      var t := Transaction(
        id,
        Trim(f.description),
        f.amount.value,
        f.kind,
        f.category,
        today,
        f.isRecurring,
        if f.isRecurring then Some(f.frequency) else None,
        if f.isRecurring then Some(f.startDate) else None,
        if f.isRecurring then Some(f.startDate) else None);
      Submission(Some(t), DefaultForm(isoToday))
  }

  /** The invariants a stored record is meant to keep: a non-empty description
      without surrounding blanks, a positive amount, and recurring fields that
      are present exactly when the record is recurring. */
  predicate WellFormed(t: Transaction)
  {
    && |t.description| > 0
    && Trim(t.description) == t.description
    && t.amount > 0.0
    && RecurrenceConsistent(t)
  }

  /** Every record the form emits is well formed. */
  lemma SubmittedRecordWellFormed(f: FormState, id: int, today: Date, isoToday: Date)
    requires HandleSubmit(f, id, today, isoToday).emitted.Some?
    ensures WellFormed(HandleSubmit(f, id, today, isoToday).emitted.value)
  {
    TrimIdempotent(f.description);
  }

  /** A description made only of blanks (spaces, tabs, line breaks, ...) is
      rejected, and then nothing is emitted and the form keeps its state. */
  lemma BlankDescriptionRejected(f: FormState, id: int, today: Date, isoToday: Date)
    requires forall k :: 0 <= k < |f.description| ==> IsTrimmable(f.description[k])
    ensures HandleSubmit(f, id, today, isoToday) == Submission(None, f)
  {
    TrimEmptyIff(f.description);
  }

  /** Right after a successful submit the form is reset, so pressing submit
      again emits nothing: a record is never emitted twice. */
  lemma NoDoubleSubmit(f: FormState, id: int, id2: int, today: Date, isoToday: Date)
    requires HandleSubmit(f, id, today, isoToday).emitted.Some?
    ensures HandleSubmit(HandleSubmit(f, id, today, isoToday).form, id2, today, isoToday).emitted.None?
  {
    assert Trim("") == "";
  }

  /** Adding an emitted record to a ledger of well-formed records keeps every
      record of the ledger well formed. */
  lemma SubmitKeepsLedgerWellFormed(ledger: seq<Transaction>, f: FormState, id: int, today: Date, isoToday: Date)
    requires forall t :: t in ledger ==> WellFormed(t)
    requires HandleSubmit(f, id, today, isoToday).emitted.Some?
    ensures forall t :: t in App.AddTransaction(ledger, HandleSubmit(f, id, today, isoToday).emitted.value) ==> WellFormed(t)
  {
    SubmittedRecordWellFormed(f, id, today, isoToday);
  }
}

=== FILE: weeks.dfy ===
/** The date-fns week helpers `startOfWeek` and `endOfWeek` with their
    default options (`weekStartsOn: 0`): a week runs from Sunday to Saturday,
    whatever the locale. Days are counted so that stepping a day forward or
    back and the day of the week can be stated exactly. */
module Weeks {
  import opened Dates

  /** Days in the years before `y`, counted from 1 January of year 0 of the
      proleptic Gregorian calendar. */
  function DaysBeforeYear(y: int): int
  {
    365 * y + (y + 3) / 4 - (y + 99) / 100 + (y + 399) / 400
  }

  /** A year has 366 days when it is a leap year and 365 otherwise. */
  lemma YearLength(y: int)
    ensures DaysBeforeYear(y + 1) - DaysBeforeYear(y) == if IsLeapYear(y) then 366 else 365
  {
    assert (y + 4) / 4 - (y + 3) / 4 == if y % 4 == 0 then 1 else 0;
    assert (y + 100) / 100 - (y + 99) / 100 == if y % 100 == 0 then 1 else 0;
    assert (y + 400) / 400 - (y + 399) / 400 == if y % 400 == 0 then 1 else 0;
  }

  /** Days of year `y` before the first of month `m`. */
  function DaysBeforeMonth(y: int, m: int): int
    requires 1 <= m <= 12
    decreases m
  {
    if m == 1 then 0 else DaysBeforeMonth(y, m - 1) + DaysInMonth(y, m - 1)
  }

  /** The twelve months fill the year exactly. */
  lemma MonthsFillYear(y: int)
    ensures DaysBeforeMonth(y, 12) + DaysInMonth(y, 12) == DaysBeforeYear(y + 1) - DaysBeforeYear(y)
  {
    YearLength(y);
    var feb := DaysInMonth(y, 2);
    assert DaysBeforeMonth(y, 2) == 31;
    assert DaysBeforeMonth(y, 3) == 31 + feb;
    assert DaysBeforeMonth(y, 4) == 62 + feb;
    assert DaysBeforeMonth(y, 5) == 92 + feb;
    assert DaysBeforeMonth(y, 6) == 123 + feb;
    assert DaysBeforeMonth(y, 7) == 153 + feb;
    assert DaysBeforeMonth(y, 8) == 184 + feb;
    assert DaysBeforeMonth(y, 9) == 215 + feb;
    assert DaysBeforeMonth(y, 10) == 245 + feb;
    assert DaysBeforeMonth(y, 11) == 276 + feb;
    assert DaysBeforeMonth(y, 12) == 306 + feb;
  }

  /** A month and the months before it take up no more of the year than
      the days before a later month. */
  lemma {:induction false} MonthsBeforeGrow(y: int, m1: int, m2: int)
    requires 1 <= m1 < m2 <= 12
    ensures DaysBeforeMonth(y, m1) + DaysInMonth(y, m1) <= DaysBeforeMonth(y, m2)
    decreases m2
  {
    if m1 < m2 - 1 {
      MonthsBeforeGrow(y, m1, m2 - 1);
    }
  }

  /** Later years start later. */
  lemma {:induction false} YearsGrow(y1: int, y2: int)
    requires y1 <= y2
    ensures DaysBeforeYear(y1) <= DaysBeforeYear(y2)
    decreases y2 - y1
  {
    if y1 < y2 {
      YearLength(y1);
      YearsGrow(y1 + 1, y2);
    }
  }

  /** Days from 1 January of year 0 to `d`. */
  function DayCount(d: Date): int
    requires 1 <= d.month <= 12
  {
    DaysBeforeYear(d.year) + DaysBeforeMonth(d.year, d.month) + d.day - 1
  }

  /** A valid day's count lies within its year. */
  lemma DayCountInYear(d: Date)
    requires ValidDate(d)
    ensures DaysBeforeYear(d.year) <= DayCount(d) < DaysBeforeYear(d.year + 1)
  {
    MonthsFillYear(d.year);
    if 1 < d.month {
      MonthsBeforeGrow(d.year, 1, d.month);
    }
    if d.month < 12 {
      MonthsBeforeGrow(d.year, d.month, 12);
    }
  }

  /** A valid day of an earlier year has a smaller count. */
  lemma EarlierYearCountsLess(a: Date, b: Date)
    requires ValidDate(a) && ValidDate(b) && a.year < b.year
    ensures DayCount(a) < DayCount(b)
  {
    DayCountInYear(a);
    DayCountInYear(b);
    YearsGrow(a.year + 1, b.year);
  }

  /** A valid day of an earlier month of the same year has a smaller count. */
  lemma EarlierMonthCountsLess(a: Date, b: Date)
    requires ValidDate(a) && ValidDate(b) && a.year == b.year && a.month < b.month
    ensures DayCount(a) < DayCount(b)
  {
    MonthsBeforeGrow(a.year, a.month, b.month);
  }

  /** On valid days the day count follows the calendar order. */
  lemma DayCountOrder(a: Date, b: Date)
    requires ValidDate(a) && ValidDate(b)
    ensures DateLe(a, b) <==> DayCount(a) <= DayCount(b)
  {
    if a.year < b.year {
      EarlierYearCountsLess(a, b);
    } else if b.year < a.year {
      EarlierYearCountsLess(b, a);
    } else if a.month < b.month {
      EarlierMonthCountsLess(a, b);
    } else if b.month < a.month {
      EarlierMonthCountsLess(b, a);
    }
  }

  /** The day of the week as `getDay` numbers it: 0 for Sunday up to 6 for
      Saturday. 1 January of year 0 was a Saturday. */
  function Weekday(d: Date): (w: int)
    requires 1 <= d.month <= 12
    ensures 0 <= w < 7
  {
    (DayCount(d) + 6) % 7
  }

  /** The day before `d`. */
  function PrevDay(d: Date): (r: Date)
    requires 1 <= d.month <= 12
    ensures 1 <= r.month <= 12
  {
    if d.day > 1 then Date(d.year, d.month, d.day - 1)
    else if d.month > 1 then Date(d.year, d.month - 1, DaysInMonth(d.year, d.month - 1))
    else Date(d.year - 1, 12, 31)
  }

  /** The day after `d`. */
  function NextDay(d: Date): (r: Date)
    requires 1 <= d.month <= 12
    ensures 1 <= r.month <= 12
  {
    if d.day < DaysInMonth(d.year, d.month) then Date(d.year, d.month, d.day + 1)
    else if d.month < 12 then Date(d.year, d.month + 1, 1)
    else Date(d.year + 1, 1, 1)
  }

  /** `PrevDay` counts one day back; across a year boundary the twelve
      months of the previous year make up its length. */
  lemma PrevDayCount(d: Date)
    requires ValidDate(d)
    ensures DayCount(PrevDay(d)) == DayCount(d) - 1
  {
    if d.day > 1 {
    } else if d.month > 1 {
      assert PrevDay(d) == Date(d.year, d.month - 1, DaysInMonth(d.year, d.month - 1));
      assert DaysBeforeMonth(d.year, d.month) == DaysBeforeMonth(d.year, d.month - 1) + DaysInMonth(d.year, d.month - 1);
    } else {
      assert PrevDay(d) == Date(d.year - 1, 12, 31);
      MonthsFillYear(d.year - 1);
    }
  }

  /** `NextDay` counts one day forward. */
  lemma NextDayCount(d: Date)
    requires ValidDate(d)
    ensures DayCount(NextDay(d)) == DayCount(d) + 1
  {
    if d.day < DaysInMonth(d.year, d.month) {
    } else if d.month < 12 {
      assert NextDay(d) == Date(d.year, d.month + 1, 1);
      assert DaysBeforeMonth(d.year, d.month + 1) == DaysBeforeMonth(d.year, d.month) + d.day;
    } else {
      assert NextDay(d) == Date(d.year + 1, 1, 1);
      MonthsFillYear(d.year);
    }
  }

  /** On a valid day, `PrevDay` yields the valid day one count earlier, and
      `NextDay` undoes it. */
  lemma PrevDayStep(d: Date)
    requires ValidDate(d)
    ensures ValidDate(PrevDay(d))
    ensures DayCount(PrevDay(d)) == DayCount(d) - 1
    ensures DateLe(PrevDay(d), d) && PrevDay(d) != d
    ensures NextDay(PrevDay(d)) == d
  {
    PrevDayCount(d);
    var p := PrevDay(d);
    if d.day > 1 {
      assert p.day < DaysInMonth(p.year, p.month);
    } else if d.month > 1 {
      assert NextDay(p) == Date(d.year, d.month, 1);
    } else {
      assert NextDay(p) == Date(d.year, 1, 1);
    }
  }

  /** On a valid day, `NextDay` yields the valid day one count later, and
      `PrevDay` undoes it. */
  lemma NextDayStep(d: Date)
    requires ValidDate(d)
    ensures ValidDate(NextDay(d))
    ensures DayCount(NextDay(d)) == DayCount(d) + 1
    ensures DateLe(d, NextDay(d)) && NextDay(d) != d
    ensures PrevDay(NextDay(d)) == d
  {
    NextDayCount(d);
    var n := NextDay(d);
    if d.day < DaysInMonth(d.year, d.month) {
      assert PrevDay(n) == Date(d.year, d.month, d.day);
    } else if d.month < 12 {
      assert PrevDay(n) == Date(d.year, d.month, DaysInMonth(d.year, d.month));
    } else {
      assert PrevDay(n) == Date(d.year, 12, 31);
    }
  }

  /** `n` days before `d`, one day at a time. */
  function DaysBack(d: Date, n: nat): (r: Date)
    requires 1 <= d.month <= 12
    ensures 1 <= r.month <= 12
    decreases n
  {
    if n == 0 then d else DaysBack(PrevDay(d), n - 1)
  }

  /** `n` days after `d`, one day at a time. */
  function DaysForward(d: Date, n: nat): (r: Date)
    requires 1 <= d.month <= 12
    ensures 1 <= r.month <= 12
    decreases n
  {
    if n == 0 then d else DaysForward(NextDay(d), n - 1)
  }

  /** Going `n` days back from a valid day lands on a valid day `n` counts earlier. */
  lemma {:induction false} DaysBackSpec(d: Date, n: nat)
    requires ValidDate(d)
    ensures ValidDate(DaysBack(d, n))
    ensures DayCount(DaysBack(d, n)) == DayCount(d) - n
    ensures DateLe(DaysBack(d, n), d)
    decreases n
  {
    if n > 0 {
      var e := PrevDay(d);
      var r := DaysBack(e, n - 1);
      assert DaysBack(d, n) == r;
      assert ValidDate(e) && DateLe(e, d) by { PrevDayStep(d); }
      assert DayCount(e) == DayCount(d) - 1 by { PrevDayCount(d); }
      DaysBackSpec(e, n - 1);
      DateLeTrans(r, e, d);
    }
  }

  /** Going `n` days forward from a valid day lands on a valid day `n` counts later. */
  lemma {:induction false} DaysForwardSpec(d: Date, n: nat)
    requires ValidDate(d)
    ensures ValidDate(DaysForward(d, n))
    ensures DayCount(DaysForward(d, n)) == DayCount(d) + n
    ensures DateLe(d, DaysForward(d, n))
    decreases n
  {
    if n > 0 {
      var e := NextDay(d);
      var r := DaysForward(e, n - 1);
      assert DaysForward(d, n) == r;
      assert ValidDate(e) && DateLe(d, e) by { NextDayStep(d); }
      assert DayCount(e) == DayCount(d) + 1 by { NextDayCount(d); }
      DaysForwardSpec(e, n - 1);
      DateLeTrans(d, e, r);
    }
  }

  /** `startOfWeek(d)`: back to the Sunday on or before `d` (the time
      00:00 is not modelled). */
  function StartOfWeek(d: Date): Date
    requires 1 <= d.month <= 12
  {
    DaysBack(d, Weekday(d))
  }

  /** `endOfWeek(d)`: forward to the Saturday on or after `d` (the time
      23:59:59.999 is not modelled). */
  function EndOfWeek(d: Date): Date
    requires 1 <= d.month <= 12
  {
    DaysForward(d, 6 - Weekday(d))
  }

  /** `startOfWeek` of a valid day is the valid Sunday `Weekday(d)` days earlier. */
  lemma StartOfWeekIsSunday(d: Date)
    requires ValidDate(d)
    ensures ValidDate(StartOfWeek(d)) && Weekday(StartOfWeek(d)) == 0
    ensures DayCount(StartOfWeek(d)) == DayCount(d) - Weekday(d)
    ensures DateLe(StartOfWeek(d), d)
  {
    DaysBackSpec(d, Weekday(d));
    WeekdayShift(d, StartOfWeek(d), -Weekday(d));
  }

  /** `endOfWeek` of a valid day is the valid Saturday `6 - Weekday(d)` days later. */
  lemma EndOfWeekIsSaturday(d: Date)
    requires ValidDate(d)
    ensures ValidDate(EndOfWeek(d)) && Weekday(EndOfWeek(d)) == 6
    ensures DayCount(EndOfWeek(d)) == DayCount(d) + 6 - Weekday(d)
    ensures DateLe(d, EndOfWeek(d))
  {
    DaysForwardSpec(d, 6 - Weekday(d));
    WeekdayShift(d, EndOfWeek(d), 6 - Weekday(d));
  }

  /** The week of a valid day runs from a Sunday to the Saturday six days
      later, both valid days, and contains the day. */
  lemma WeekBounds(d: Date)
    requires ValidDate(d)
    ensures ValidDate(StartOfWeek(d)) && ValidDate(EndOfWeek(d))
    ensures Weekday(StartOfWeek(d)) == 0 && Weekday(EndOfWeek(d)) == 6
    ensures DayCount(EndOfWeek(d)) == DayCount(StartOfWeek(d)) + 6
    ensures DateLe(StartOfWeek(d), d) && DateLe(d, EndOfWeek(d))
  {
    StartOfWeekIsSunday(d);
    EndOfWeekIsSaturday(d);
  }

  /** Days `k` apart are `k` weekdays apart, modulo 7. */
  lemma WeekdayShift(a: Date, b: Date, k: int)
    requires 1 <= a.month <= 12 && 1 <= b.month <= 12
    requires DayCount(b) == DayCount(a) + k
    ensures Weekday(b) == (Weekday(a) + k) % 7
  {
    var x := DayCount(a) + 6;
    assert x == 7 * (x / 7) + Weekday(a);
    assert DayCount(b) + 6 == 7 * (x / 7) + (Weekday(a) + k);
  }

  /** Two known days: 1 January 1970 was a Thursday and 1 January 2024 a Monday. */
  lemma KnownWeekdays()
    ensures Weekday(Date(1970, 1, 1)) == 4
    ensures Weekday(Date(2024, 1, 1)) == 1
  {
  }
}
